=== FILE: README.md ===
# phenny's IRC core, modelled in Dafny

A model of the protocol core of the phenny IRC bot and of its HTML entity
decoder.

- `irc.py`
  - `Origin`: who sent an incoming line, and where a reply goes.
  - `Bot.collect_incoming_data` and `Bot.found_terminator`: buffering, parsing and dispatching incoming lines, and answering PING.
  - `Bot.__write` and `Bot.write`: formatting an outgoing line as UTF-8, cut to 510 bytes, then CR LF.
  - `Bot.msg`: pacing and loop detection.
  - `Bot.notice`.
  - `Bot.error`: the one-line report of a traceback.
  - The registration lines sent by `handle_connect`.
- `web.py`
  - `entity`, `r_entity` and `decode`: replacing `&name;`, `&#N;` and `&#xN;` references.

Modules:

| module | file | what it holds |
|---|---|---|
| `Strings` | strings.dfy | The Python `str`/`list` behaviour the bot uses: `isspace`, `split()`, `' '.join`, `split(sep, 1)`, the `safe` helper, `strip`, `splitlines`, `count`, `[-n:]`. |
| `Utf8` | utf8.dfy | `bytes(s, 'utf-8', 'ignore')` and `str(b, 'utf-8', 'ignore')`. |
| `Origins` | origin.dfy | The `Origin` record and the source regex `([^!]*)!?([^@]*)@?(.*)`. |
| `Lines` | lines.dfy | Incoming line parsing, outgoing line formatting, and the round trips between them. |
| `Throttle` | throttle.dfy | `msg`'s decisions as a step function on the history `self.stack`, and the invariant that step keeps. |
| `Reports` | report.dfy | `error`'s report: a function that defines it and the loop that computes it. |
| `Session` | bot.dfy | `class Bot`, with fields updated in place by its methods: the receive buffer, the history, the queue of pushed lines (`outbox`) and the dispatched calls. |
| `Web` | web.dfy | `str.lower`, `int(s, 10/16)`, `chr`, `entity`, the `r_entity` match and `decode`. |

Three things from outside the program become parameters:

- The clock. `msg` is entered at time `now` and returns how long it slept.
- The traceback text that `error` formats.
- The `html.entities.html5` table, a `map<string, string>` whose keys end in `;`.

Exceptions the source raises are modelled as values:

- `found_terminator` returns a `Fault` for each of its two exceptions.
- `entity` and `decode` return `None` where `int` or `chr` raise.
- `Report` returns `None` where the report cannot be composed.

The reply to PING is written as `PONG <token>`, with the token as a plain parameter, as irc.py:143 writes it. It is not written with a trailing `:token`.

## Model

| member | source | states |
|---|---|---|
| Strings.Words | irc.py:137 | `argstr.split()` yields only non-empty words without whitespace |
| Strings.WordsOfLeadingSpace | irc.py:137 | leading whitespace of any length is skipped |
| Strings.WordsOfSpaceRun | irc.py:137 | a run of whitespace of any length separates two words and yields no empty word |
| Strings.WordsOfJoin | irc.py:137 | splitting a space-joined list of well-formed words gives back exactly that list |
| Strings.WordLenOfPrefix | irc.py:137 | a word is measured up to the first whitespace after it |
| Strings.Join | irc.py:57-58 | `' '.join(ws)`, defined by its body; its inverse is WordsOfJoin and its length is JoinWidth |
| Strings.JoinWidth | irc.py:57-58 | a join has the words' total length plus exactly one separator between each two words |
| Strings.IndexOf | irc.py:131 | the first index of a character, or the length when absent; no earlier occurrence |
| Strings.SplitOnce | irc.py:135 | `split(sep, 1)`: before + sep + after rebuilds the line, the separator is the first occurrence, None exactly when there is none |
| Strings.Find | irc.py:134 | `' :' in line`: the first occurrence, and None exactly when there is no occurrence |
| Strings.Safe | irc.py:64-67 | `safe(input)` has no CR or LF, and None gives ""; SafeDropsBreak states that each CR or LF is deleted |
| Strings.SafeDropsBreak | irc.py:64-67 | `safe` deletes a CR or LF and joins the text on both sides |
| Strings.RemoveBreaks | irc.py:66-67 | `replace('\n', '').replace('\r', '')` leaves no CR or LF and never lengthens the text |
| Strings.RemoveBreaksKeepsClean | irc.py:64-67 | `safe` leaves text without CR and LF unchanged |
| Strings.RemoveBreaksAppend | irc.py:66-67 | removing breaks works piecewise over concatenation |
| Strings.RemoveBreaksOfBreak | irc.py:66-67 | a lone CR or LF is deleted, not replaced by anything |
| Strings.RemoveBreaksDropsBreak | irc.py:66-67 | a CR or LF anywhere is deleted and the text on both sides is joined, so `hello\r\nworld` becomes `helloworld` |
| Strings.Strip | irc.py:189-191 | `strip()`, defined by its body; StripIsTrimmed states what it keeps and what it cuts |
| Strings.StripIsTrimmed | irc.py:189-191 | the stripped line is a contiguous middle part, with no whitespace at either end, and only whitespace cut around it |
| Strings.SplitLines | irc.py:187 | `splitlines()` yields lines without line breaks, and none for an empty text |
| Strings.SplitLinesOfTerminated | irc.py:187 | `splitlines` gives back break-free lines that were each followed by a newline |
| Strings.SplitLinesOfFirstCrLf | irc.py:187 | a break-free line followed by CR LF is the first line, the pair counting as one break |
| Strings.BreakIndexOfPrefix | irc.py:187 | a line ends at the first break after its text |
| Strings.Count | irc.py:163-165 | `list.count` is bounded by the length |
| Strings.CountAppend | irc.py:163-165 | the count over a concatenation is the sum of the counts |
| Strings.Last | irc.py:162 | `xs[-n:]` has `min(n, len(xs))` elements |
| Strings.LastIsSuffix | irc.py:162 | `xs[-n:]` holds the last elements of `xs`, in order |
| Utf8.EncodeChar | irc.py:57-58 | one to four bytes; one exactly for ASCII; a valid lead byte; continuation bytes after it |
| Utf8.Encode | irc.py:57-58 | the UTF-8 encoding of the line, defined by its body; EncodeLength bounds its length, and DecodeIgnoreOfEncode and DecodeFirstIsEncoding tie it to the decoder |
| Utf8.EncodeLength | irc.py:57-58 | the encoding has between one and four bytes per character |
| Utf8.EncodeAppend | irc.py:57-58 | encoding distributes over concatenation |
| Utf8.EncodeAscii | irc.py:57-58 | ASCII text encodes to one byte per character, each byte its code |
| Utf8.DecodeFirst | irc.py:121 | a well-formed sequence found at the front has a length within the input; DecodeFirstIsEncoding is its converse |
| Utf8.DecodeFirstIsEncoding | irc.py:121 | every sequence the decoder accepts is exactly the well-formed encoding of the character it returns, so overlong forms, surrogates and values above U+10FFFF are never decoded |
| Utf8.TwoIsEncoding | irc.py:121 | an accepted two-byte sequence is the encoding of its character |
| Utf8.ThreeIsEncoding | irc.py:121 | an accepted three-byte sequence is the encoding of its character |
| Utf8.FourIsEncoding | irc.py:121 | an accepted four-byte sequence is the encoding of its character |
| Utf8.EncodingOfTwo | irc.py:121 | the two bytes built from a lead value and a continuation value are the encoding of the value they spell |
| Utf8.EncodingOfThree | irc.py:121 | the same for three bytes |
| Utf8.EncodingOfFour | irc.py:121 | the same for four bytes |
| Utf8.DecodeFirstOfEncodeChar | irc.py:121 | the decoder reads back each encoded character with its length (lemmas DecodeFirstOfTwo/Three/Four for the multi-byte forms) |
| Utf8.DecodeFirstOfTwo | irc.py:121 | a two-byte sequence decodes to its character |
| Utf8.DecodeFirstOfThree | irc.py:121 | a three-byte sequence decodes to its character |
| Utf8.DecodeFirstOfFour | irc.py:121 | a four-byte sequence decodes to its character |
| Utf8.DecodeIgnore | irc.py:121 | `str(bs, 'utf-8', 'ignore')`, defined by its body; DecodeIgnoreOfEncode, DecodeIgnoreSkipsContinuation, DecodeFirstIsEncoding and DecodeIgnoreLength state what it keeps and drops |
| Utf8.DecodeIgnoreLength | irc.py:121 | decoding yields at most one character per byte |
| Utf8.DecodeIgnoreOfEncode | irc.py:121 | decoding with 'ignore' undoes encoding: no text is lost |
| Utf8.DecodeIgnoreSkipsContinuation | irc.py:121 | a stray continuation byte never reaches the decoded text |
| Origins.UserAndHost | irc.py:14-18 | the user group has no `@` and the host group no newline; without `@` the whole rest is the user |
| Origins.UserAndHostAtSign | irc.py:14-18 | with an `@`, the user is the text before the first one, and the host runs from there to the first newline or the end |
| Origins.SourceGroups | irc.py:14-18 | the nick has no `!`, the user no `@`, the host no newline; without `!` the whole source is the nick |
| Origins.SourceGroupsAtBang | irc.py:14-18 | with a `!`, the nick is the text before the first one and user/host come from the rest |
| Origins.UserAndHostOfMask | irc.py:14-18 | `user@host` splits back into its parts |
| Origins.SourceGroupsOfFullMask | irc.py:14-18 | a full `nick!user@host` source splits back into its three parts |
| Origins.MakeOrigin | irc.py:16-26 | the groups come from the source, or "" when absent; the hostmask is the raw source; the sender is None with fewer than two args, else args[1], else the sender's nick when args[1] is the bot's nick |
| Lines.StripCR | irc.py:124-126 | exactly one trailing CR is removed, and only when present |
| Lines.SplitSource | irc.py:130-132 | fails exactly on a `:` line without a space; otherwise the source has no space and `":" + source + " " + rest` is the line, and an unprefixed line is kept whole |
| Lines.SplitTrailing | irc.py:134-136 | without `" :"` the text is ""; otherwise the line is `argstr + " :" + text` at the first marker |
| Lines.ParseLine | irc.py:130-137 | fails (ValueError) exactly on a `:` line without a space; the source is present exactly for `:` lines; the args are well-formed words |
| Lines.Compose | irc.py:57-58 | the string `__write` encodes, defined by its body; ParseOfComposed is its inverse |
| Lines.FormatLine | irc.py:52-60 | the pushed bytes end in CR LF, are at most 512 long, are a prefix of the UTF-8 encoding, are all of it when it fits in 510 bytes, and are exactly 510 of it otherwise |
| Lines.SafeAll | irc.py:69 | each argument becomes `safe(arg)` |
| Lines.WriteLine | irc.py:62-73 | a written line ends in CR LF and has no CR or LF byte before it |
| Lines.JoinNoCrLf | irc.py:69-72 | joining clean words gives a clean string |
| Lines.ComposeNoCrLf | irc.py:69-72 | composing clean words and text gives a clean string |
| Lines.EncodeNoCrLf | irc.py:57-58 | the encoding of a clean string contains no CR or LF byte |
| Lines.JoinShape | irc.py:57 | a join of parameters starts with the first word's first character and ends in a non-space |
| Lines.NoMarkInJoin | irc.py:134-136 | parameters joined by spaces never contain `" :"` |
| Lines.NoMarkAt | irc.py:134-136 | no `" :"` at any position of `word + " " + rest` |
| Lines.NoMarkBeforeText | irc.py:134-136 | in a composed line, no marker starts inside the words |
| Lines.SplitTrailingOfComposed | irc.py:134-136 | a composed line splits at the marker the composer put there |
| Lines.ParseOfComposed | irc.py:130-137 | a composed outgoing line parses back to no source, the same words, and the text (or "") |
| Lines.ParseOfComposedText | irc.py:130-137 | the same, for a line with a trailing text |
| Lines.ParseOfWords | irc.py:130-137 | the same, for a line without trailing text |
| Lines.ParseOfPrefixed | irc.py:130-137 | `:source words` with or without a trailing `:text` parses to that source, those words and that text ("" when absent) |
| Lines.WriteLineOfClean | irc.py:62-73 | `write` of clean parts that fit is their encoding followed by CR LF |
| Lines.ReadBack | irc.py:120-126 | for a text without CR or LF, the bytes up to its only LF, decoded and with the CR stripped, give the text back |
| Lines.ReadBackOfComposed | irc.py:120-126 | a composed line of clean words and text, once framed and decoded, gives that same line back |
| Lines.WireRoundTrip | irc.py:52-137 | a line written by `write`, framed at the LF, decoded and parsed, gives back the same words and text |
| Throttle.Penalty | irc.py:156 | no penalty up to 50 characters, then one second per 70 further characters |
| Throttle.Wait | irc.py:157 | the wait is at least 0.8 seconds |
| Throttle.Delay | irc.py:153-159 | no sleep after an empty history or three quiet seconds; otherwise the sleep makes `Wait(text)` pass since the last entry, exactly when it sleeps at all |
| Throttle.Recent | irc.py:162 | `[m[1] for m in self.stack[-8:]]`, defined by its body; RecentIsTail states its contents |
| Throttle.RecentIsTail | irc.py:162 | the recent texts are those of the last eight entries, or of all when there are fewer, oldest first |
| Throttle.Texts | irc.py:162 | the texts of a history, entry by entry |
| Throttle.Detect | irc.py:161-167 | drops exactly when the text is among the last eight five times and `...` three times; otherwise passes the text, or `...` when it is repeated |
| Throttle.Record | irc.py:174-175 | the new history has one to ten entries, ends with the new entry, and keeps the older ones (the oldest dropped at capacity) |
| Throttle.Send | irc.py:148-177 | one `msg`: its sleep is `Delay`, it drops exactly when `Detect` does, a drop leaves the history alone, otherwise the sent text is recorded at `now + slept` |
| Throttle.GapAfterSend | irc.py:151-159 | a sent entry follows the previous one by at least `Wait(text)`, or three seconds when it was quiet, and never by less than 0.8 seconds |
| Throttle.RecentAfterRecord | irc.py:162-175 | after recording, the last eight texts are the seven before plus the new one |
| Throttle.CountAfterRecord | irc.py:162-175 | recording adds at most one to its own text's count among the last eight, and nothing to other texts' counts |
| Throttle.CountOfShorterLast | irc.py:162 | a shorter suffix counts no more |
| Throttle.SendKeepsSpacing | irc.py:151-159 | `msg` keeps every pair of consecutive entries at least 0.8 seconds apart |
| Throttle.RecordKeepsSpacing | irc.py:174-175 | recording an entry spaced from the last keeps the spacing |
| Throttle.SendKeepsNotFlooding | irc.py:161-167 | `msg` never lets a text appear more than five times among the last eight |
| Throttle.RecordKeepsNotFlooding | irc.py:161-175 | recording what `Detect` passes keeps every count at most five |
| Throttle.CountAfterRecordBounded | irc.py:161-175 | the same, for one text |
| Throttle.SendKeepsHistory | irc.py:148-177 | `msg` keeps the history at most ten entries long, paced and free of floods |
| Throttle.DroppedStaysDropped | irc.py:161-167 | once a text is dropped, sending it again is dropped again |
| Throttle.FiveRepeatsAndThreePlaceholdersDrop | irc.py:161-167 | five copies and three `...` among the last eight drop a sixth copy and leave the history alone |
| Throttle.CountsOfExample | irc.py:163-165 | the counts in that history are five and three |
| Reports.StripAll | irc.py:190-191 | every line stripped, in order |
| Reports.FrameIndex | irc.py:190-194 | the found line is a frame line with no frame line after it; None when there is no frame line |
| Reports.Lowered | irc.py:193 | the frame line with its `F` lowered: `file "/` and the rest |
| Reports.Report | irc.py:187-197 | the report fails exactly on an empty traceback |
| Reports.ReportOfLines | irc.py:187-197 | the report fails exactly when there are no lines |
| Reports.ErrorText | irc.py:182-198 | "Got an error." is sent exactly when the traceback is empty |
| Reports.FrameIndexIs | irc.py:190-194 | the bottom-most frame line is the one found |
| Reports.ReportOfTerminated | irc.py:187 | a traceback of break-free lines reports on those lines |
| Reports.ReportOfLinesWithFrame | irc.py:189-197 | the last stripped line, then the last frame line lowered, in parentheses |
| Reports.ReportNamesInnermostFrame | irc.py:187-197 | a traceback whose last frame line is `frame` reports its last line and that frame |
| Reports.ReportWithoutFrame | irc.py:195-197 | without a frame line the report ends in `(source unknown)` |
| Reports.ComposeReport | irc.py:187-197 | the loop over the reversed lines computes `Report` |
| Session.Registration | irc.py:111-114 | PASS first exactly when there is a non-empty password, then NICK, then `USER user +iw nick :name` |
| Session.PongFor | irc.py:142-143 | the reply is the UTF-8 encoding of `PONG ` followed by the token without its CR and LF, with the token as a plain parameter (no `" :"`), cut to exactly 510 bytes when longer, then CR LF; the whole encoding when it fits |
| Session.Receive | irc.py:123-143 | no dispatch exactly when the source split fails (ValueError); otherwise dispatch of the origin and `[text] + args`, IndexError exactly when there are no args, and a PONG of the text exactly for PING |
| Session.Bot.constructor | irc.py:29-42 | the user is the nick; the buffer, history, queue and dispatch record start empty |
| Session.Bot.CollectIncomingData | irc.py:120-121 | the buffer grows by the decoded data |
| Session.Bot.FoundTerminator | irc.py:123-143 | the buffer is emptied, and the fault, dispatch and reply are those of `Receive` on the old buffer |
| Session.Bot.Write | irc.py:62-73 | the queue grows by `WriteLine(args, text)` |
| Session.Bot.Notice | irc.py:179-180 | the queue grows by the NOTICE line, with an absent destination written as "" |
| Session.Bot.HandleConnect | irc.py:111-114 | the queue grows by the registration lines |
| Session.Bot.Msg | irc.py:148-177 | keeps the history invariant; the sleep and the new history are `Send`'s; the PRIVMSG is queued exactly when the text is not dropped |
| Session.Bot.Error | irc.py:182-198 | sends `ErrorText(trace)` through `Msg`, with its effects |
| Session.PingParses | irc.py:130-137 | `PING :token` parses to the PING command with the token as text |
| Session.PongReadsBack | irc.py:142-143 | the PONG reply reads back as PONG and the token |
| Session.NickReadsBack | irc.py:113 | the NICK line reads back as NICK and the nick |
| Session.UserReadsBack | irc.py:114 | the USER line reads back as USER, user, `+iw`, nick, with the real name as text |
| Web.LowerChar | web.py:55 | ASCII capitals move to lower case, and every other character is unchanged |
| Web.Lower | web.py:55 | `lower()` character by character, with the length kept |
| Web.LowerIdempotent | web.py:55 | lowering twice is lowering once |
| Web.DigitValue | web.py:57-59 | a digit's value is below the base; `0`-`9` have their value; sign, underscore and `x` are no digits |
| Web.Unprefixed | web.py:57 | removing the prefix never lengthens the text |
| Web.UnprefixedIsSuffix | web.py:57 | what remains is the tail of the text |
| Web.DigitsValue | web.py:57-59 | the number the digits spell, underscores skipped, defined by its body; DigitsValueOfShow is its inverse |
| Web.Magnitude | web.py:57-59 | the unsigned part of `int`, defined by its body; MagnitudeOfShow and MagnitudeOfHexPrefix state when it succeeds; MagnitudeOfStrayChar and MagnitudeOfMisplacedUnderscore state when it fails |
| Web.MagnitudeOfStrayChar | web.py:57-59 | a character other than a digit, `_`, `x` or `X` anywhere in the unsigned part makes it fail |
| Web.SplitSign | web.py:57-59 | negative exactly on a leading `-`; the rest is the text, or the text after its sign |
| Web.ParseInt | web.py:57-59 | a parsed value without a leading `-` is not negative |
| Web.ParseIntOfStrayChar | web.py:57-59 | a character other than a digit, a sign, `_`, `x` or `X` anywhere in the text makes `int` raise |
| Web.ParseIntWithoutDigits | web.py:57-59 | a text without a digit (empty, a lone sign, a lone `_`) raises |
| Web.DigitChar | web.py:57-59 | the digit character reads back as its value |
| Web.Show | web.py:57-59 | the digits written are non-empty, valid for the base and lower case |
| Web.DigitsValueOfShow | web.py:57-59 | the digits of `n` spell `n` |
| Web.MagnitudeOfShow | web.py:57-59 | the magnitude of the digits of `n` is `n` |
| Web.UnprefixedOfHexPrefix | web.py:57-59 | in base 16, a `0x` or `0X` prefix and one underscore after it are dropped before the digits |
| Web.MagnitudeOfHexPrefix | web.py:57-59 | in base 16, `0x`, `0X`, `0x_` or `0X_` before the digits of `n` still gives `n` |
| Web.MagnitudeOfMisplacedUnderscore | web.py:57-59 | an underscore first, last or followed by another underscore in the digit part makes it fail |
| Web.ParseIntOfShow | web.py:57-59 | `int` reads back the digits of `n`, in both bases |
| Web.ParseIntOfMinus | web.py:57-59 | a leading `-` negates the magnitude of the rest, and fails where it fails |
| Web.ParseIntOfNegative | web.py:57-59 | `-` followed by the digits of `n` reads as `-n` |
| Web.Chr | web.py:57-59 | a one-character string with that code, exactly for scalar values; an error otherwise |
| Web.Entity | web.py:54-62 | after lowering: a name in the table gives its value, a name not in it gives `[name]`, and a `#` reference gives one character when it succeeds |
| Web.EntityIgnoresCase | web.py:55 | the name's case does not matter |
| Web.EntityOfDecimal | web.py:58-59 | `#` and the decimal digits of a character's code give that character |
| Web.EntityOfHex | web.py:56-57 | `#x` and the hexadecimal digits of a character's code give that character |
| Web.EntityOfStrayDecimal | web.py:58-59 | `#` followed by a number with a character `int` rejects raises |
| Web.EntityOfStrayHex | web.py:56-57 | `#x` followed by a number with a character `int(_, 16)` rejects raises |
| Web.EntityWithoutDigits | web.py:56-59 | `#` or `#x` without digits raises |
| Web.NameLen | web.py:64 | the longest run of `[^;\s]` characters at the front |
| Web.EntityEndsAfterName | web.py:64 | a match can only end right after the longest run of name characters |
| Web.MatchAt | web.py:64 | a result is a match of `&([^;\s]+);` at the front; None exactly when there is no match there |
| Web.Decode | web.py:66-67 | `re.sub(r_entity, entity, html)`, defined by its body; DecodeOfPlainPrefix, DecodeOfEntity and DecodeKeepsBareAmpersand state each case, and DecodeOfEscaped is its inverse |
| Web.DecodeOfPlainPrefix | web.py:66-67 | text before the first `&` is copied unchanged and decoding goes on after it; a failure there fails the whole decode |
| Web.DecodeOfPlainChar | web.py:66-67 | a character other than `&` is copied |
| Web.DecodePlain | web.py:66-67 | text without `&` decodes to itself |
| Web.DecodeOfEntity | web.py:66-67 | a complete entity is replaced by `entity` of its name and decoding resumes after its `;`; a failing entity fails the whole decode |
| Web.DecodeKeepsBareAmpersand | web.py:66-67 | an `&` that opens no match is copied |
| Web.NoEntityAfterBareAmpersand | web.py:64 | an `&` before a space, a `;` or the end opens no match |
| Web.Escaped | web.py:66-67 | escaping is empty exactly for the empty text |
| Web.ReferenceIsName | web.py:64 | `#` and decimal digits are all name characters |
| Web.DecodeOfEscaped | web.py:54-67 | decoding undoes writing every character as `&#N;`, whatever the table |

## Left out

- Sockets, `asyncore`/`asynchat` and TLS are not modelled: `run`, `initiate_connect`, the handshake in `handle_connect`, `handle_close`, `initiate_send`.
- The search for the `\n` terminator is not modelled. `CollectIncomingData` gets each chunk before the terminator, and `FoundTerminator` is called at the terminator.
- Locks, `print` output, the `verbose` flag, `TestBot` and the program's entry point are not modelled. None of them affects the state modelled here.
- `dispatch` is a no-op hook. The model records each call in `dispatched` instead of running handlers.
- The clock and `time.sleep` are not modelled. `Msg` takes the entry time as `now` and returns how long it would sleep. An entry is stamped `now + slept`, as if writing takes no time.
- Bot.Error: the bare `except` also catches failures raised inside the first `msg` call. In the model `Msg` cannot fail, so only the empty traceback reaches "Got an error.". The `print(trace)` is not modelled.
- Bot.Write: the `except Exception` catch-all for arguments that are not strings is not modelled, since arguments are strings here. `__write`'s `except IndexError` cannot trigger.
- Bot.FoundTerminator: the exception is returned as a value. What the event loop does after it is not modelled.
- Throttle.Penalty: uses exact real arithmetic, not floating point.
- Utf8.Encode: a Dafny `char` cannot hold a lone surrogate. Python strings can, and `'ignore'` drops them when encoding.
- Web.LowerChar / Web.Lower: lowers ASCII letters only. Python's `lower()` also lowers other letters, which can change what a non-ASCII name looks up, and a name not in the table comes out as `[name]` with its non-ASCII capitals kept where Python lowers them.
- Web.ParseInt: accepts ASCII digits only. Python's `int` also accepts other Unicode decimal digits. Whitespace, which `int` would strip, cannot occur in a matched name.
- Web.Chr: a surrogate code (0xD800 to 0xDFFF) is an error here. Python's `chr` returns a lone surrogate for it.
- `get`, `head`, `post`, `json` and `urlencode` in web.py are not modelled: they do network I/O or call library code.

=== FILE: bot.dfy ===
/** The connection-facing state of `Bot` (irc.py): the receive buffer, the
    history of sent messages, the queue of outgoing lines, and the lines handed
    on to `dispatch`. The socket is not modelled: `outbox` is what `push` has
    queued, in order, and `dispatched` is what `dispatch` has been called with. */
module Session {
  import opened Strings
  import Utf8
  import opened Origins
  import opened Lines
  import Throttle
  import Reports

  /** One call of `dispatch(origin, args)`: `args` is the trailing text followed
      by the words of the line. */
  datatype Dispatch = Dispatch(origin: Origin, args: seq<string>)

  /** What `handle_connect` sends: PASS when there is a non-empty password,
      then NICK, then USER with the mode `+iw` and the real name as text. */
  function Registration(nick: string, user: string, name: string, password: Option<string>): (ls: seq<seq<byte>>)
    ensures |ls| == if password.Some? && password.value != "" then 3 else 2
    ensures ls[|ls| - 2] == WriteLine(["NICK", nick], None)
    ensures ls[|ls| - 1] == WriteLine(["USER", user, "+iw", nick], Some(name))
    ensures |ls| == 3 ==> ls[0] == WriteLine(["PASS", password.value], None)
  {
    var pass := if password.Some? && password.value != "" then [WriteLine(["PASS", password.value], None)] else [];
    pass + [WriteLine(["NICK", nick], None), WriteLine(["USER", user, "+iw", nick], Some(name))]
  }

  /** The answer to a server PING: the token, without its CR and LF, as a
      plain parameter after `PONG ` (no `" :"` marker), cut to 510 bytes and
      ended by CR LF. */
  function PongFor(token: string): (bs: seq<byte>)
    ensures 2 <= |bs| <= MaxBody + 2 && bs[|bs| - 2..] == [CR, LF]
    ensures var e := Utf8.Encode("PONG " + RemoveBreaks(token));
      |bs| - 2 <= |e| && bs[..|bs| - 2] == e[..|bs| - 2]
      && (|e| <= MaxBody ==> bs == e + [CR, LF])
      && (|e| > MaxBody ==> |bs| == MaxBody + 2)
  {
    RemoveBreaksKeepsClean("PONG");
    assert SafeAll(["PONG", token]) == ["PONG", RemoveBreaks(token)];
    var args := ["PONG", RemoveBreaks(token)];
    assert args[1..] == [RemoveBreaks(token)];
    assert Join(args) == "PONG " + RemoveBreaks(token);
    assert Compose(args, None) == Join(args) + "" == Join(args);
    WriteLine(["PONG", token], None)
  }

  /** The effects of `found_terminator` on one buffered line: the exception it
      raises, the `dispatch` call it makes, and the reply it writes. */
  datatype Received = Received(fault: Option<Fault>, dispatch: Option<Dispatch>, reply: Option<seq<byte>>)

  function Receive(botNick: string, buffered: string): (r: Received)
    ensures r.dispatch.None? <==> ParseLine(StripCR(buffered)).Failed?
    ensures r.dispatch.None? ==> r.fault == Some(NoSpaceAfterSource) && r.reply.None?
    ensures r.dispatch.Some? ==>
      var p := ParseLine(StripCR(buffered)).parsed;
      r.dispatch.value.origin == MakeOrigin(botNick, p.source, p.args)
      && r.dispatch.value.args == [p.text] + p.args
      && (r.fault.Some? <==> p.args == [])
      && (r.fault.Some? ==> r.fault == Some(NoCommand))
      && (r.reply.Some? <==> p.args != [] && p.args[0] == "PING")
      && (r.reply.Some? ==> r.reply.value == PongFor(p.text))
  {
    match ParseLine(StripCR(buffered))
    case Failed(f) => Received(Some(f), None, None)
    case Ok(p) =>
      var d := Some(Dispatch(MakeOrigin(botNick, p.source, p.args), [p.text] + p.args));
      if p.args == [] then Received(Some(NoCommand), d, None)
      else if p.args[0] == "PING" then Received(None, d, Some(PongFor(p.text)))
      else Received(None, d, None)
  }

  function AsSeq<T>(o: Option<T>): (s: seq<T>)
    ensures o.None? ==> s == []
    ensures o.Some? ==> s == [o.value]
  {
    if o.Some? then [o.value] else []
  }

  class Bot {
    const nick: string
    const user: string
    const name: string
    const password: Option<string>

    var buffer: string
    var stack: seq<Throttle.Entry>
    var outbox: seq<seq<byte>>
    var dispatched: seq<Dispatch>

    /** The history of sent messages keeps what `msg` promises: at most ten
        entries, spaced at least 0.8 seconds apart, no text more than five
        times among the last eight. */
    ghost predicate Valid()
      reads this
    {
      Throttle.History(stack)
    }

    constructor (nick: string, name: string, password: Option<string>)
      ensures Valid()
      ensures this.nick == nick && this.user == nick && this.name == name && this.password == password
      ensures buffer == "" && stack == [] && outbox == [] && dispatched == []
    {
      this.nick := nick;
      this.user := nick;
      this.name := name;
      this.password := password;
      buffer := "";
      stack := [];
      outbox := [];
      dispatched := [];
    }

    /** `collect_incoming_data`: received bytes are decoded, dropping what is
        not well-formed UTF-8, and appended to the buffer. */
    method CollectIncomingData(data: seq<byte>)
      modifies this`buffer
      ensures buffer == old(buffer) + Utf8.DecodeIgnore(data)
    {
      buffer := buffer + Utf8.DecodeIgnore(data);
    }

    /** `found_terminator`: the buffered line is taken, the buffer emptied, the
        line parsed and dispatched, and a PING answered. The result is the
        exception the source raises, if any: a prefixed line without a space
        fails before dispatch, a line without words after it. */
    method FoundTerminator() returns (fault: Option<Fault>)
      modifies this`buffer, this`dispatched, this`outbox
      ensures buffer == ""
      ensures var r := Receive(nick, old(buffer));
        fault == r.fault
        && dispatched == old(dispatched) + AsSeq(r.dispatch)
        && outbox == old(outbox) + AsSeq(r.reply)
    {
      var line := StripCR(buffer);
      buffer := "";
      var r := ParseLine(line);
      if r.Failed? {
        return Some(r.fault);
      }
      var p := r.parsed;
      var origin := MakeOrigin(nick, p.source, p.args);
      dispatched := dispatched + [Dispatch(origin, [p.text] + p.args)];
      if p.args == [] {
        return Some(NoCommand);
      }
      if p.args[0] == "PING" {
        Write(["PONG", p.text], None);
      }
      return None;
    }

    /** `write(args, text)`: the line with CR and LF removed from every part. */
    method Write(args: seq<string>, text: Option<string>)
      modifies this`outbox
      ensures outbox == old(outbox) + [WriteLine(args, text)]
    {
      outbox := outbox + [WriteLine(args, text)];
    }

    /** `notice(dest, text)`; an absent destination is written as an empty word. */
    method Notice(dest: Option<string>, text: Option<string>)
      modifies this`outbox
      ensures outbox == old(outbox) + [WriteLine(["NOTICE", dest.GetOr("")], text)]
    {
      Write(["NOTICE", dest.GetOr("")], text);
    }

    /** `handle_connect`, after the socket (and TLS) is up. */
    method HandleConnect()
      modifies this`outbox
      ensures outbox == old(outbox) + Registration(nick, user, name, password)
    {
      if password.Some? && password.value != "" {
        Write(["PASS", password.value], None);
      }
      Write(["NICK", nick], None);
      Write(["USER", user, "+iw", nick], Some(name));
    }

    /** `msg(recipient, text)` entered at time `now`: pause, run loop
        detection, write the PRIVMSG and record it. The result is how long it
        slept, which it does even when the text is then dropped. */
    method Msg(recipient: Option<string>, text: string, now: real) returns (slept: real)
      requires Valid()
      modifies this`stack, this`outbox
      ensures Valid()
      ensures var o := Throttle.Send(old(stack), text, now);
        slept == o.slept && stack == o.stack
        && outbox == old(outbox)
           + (if o.sent.Some? then [FormatLine(["PRIVMSG", Safe(recipient)], Some(Safe(o.sent)))] else [])
    {
      Throttle.SendKeepsHistory(stack, text, now);
      slept := 0.0;
      if stack != [] {
        var elapsed := now - stack[|stack| - 1].time;
        if elapsed < Throttle.QuietPeriod {
          var wait := Throttle.Wait(text);
          if elapsed < wait {
            slept := wait - elapsed;
          }
        }
      }
      var messages := Throttle.Recent(stack);
      var sent := text;
      if Count(messages, text) >= Throttle.RepeatLimit {
        sent := Throttle.Placeholder;
        if Count(messages, Throttle.Placeholder) >= Throttle.PlaceholderLimit {
          return;
        }
      }
      outbox := outbox + [FormatLine(["PRIVMSG", Safe(recipient)], Some(Safe(Some(sent))))];
      stack := Last(stack + [Throttle.Entry(now + slept, sent)], Throttle.Capacity);
    }

    /** `error(origin)`: the report built from the traceback, or "Got an error."
        when building it fails, sent to the origin's reply target. */
    method Error(sender: Option<string>, trace: string, now: real) returns (slept: real)
      requires Valid()
      modifies this`stack, this`outbox
      ensures Valid()
      ensures var o := Throttle.Send(old(stack), Reports.ErrorText(trace), now);
        slept == o.slept && stack == o.stack
        && outbox == old(outbox)
           + (if o.sent.Some? then [FormatLine(["PRIVMSG", Safe(sender)], Some(Safe(o.sent)))] else [])
    {
      var report := Reports.ComposeReport(trace);
      var text := if report.Some? then report.value else Reports.Fallback;
      slept := Msg(sender, text, now);
    }
  }

  /** A server PING line parses to the command with the token as its text. */
  lemma PingParses(token: string)
    ensures ParseLine("PING :" + token) == Ok(Parsed(None, token, ["PING"]))
  {
    assert Join(["PING"]) == "PING";
    assert Compose(["PING"], Some(token)) == "PING :" + token;
    ParseOfComposed(["PING"], Some(token));
  }

  /** The PONG reply reads back as the two words PONG and the token. */
  lemma PongReadsBack(token: string)
    requires IsParam(token) && NoCrLf(token)
    requires |Utf8.Encode(Compose(["PONG", token], None))| <= MaxBody
    ensures var bs := PongFor(token);
      ParseLine(StripCR(Utf8.DecodeIgnore(bs[..|bs| - 1]))) == Ok(Parsed(None, "", ["PONG", token]))
  {
    assert "PONG"[0] == 'P';
    WireRoundTrip(["PONG", token], None);
  }

  /** The NICK line reads back as NICK and the nick. */
  lemma NickReadsBack(nick: string)
    requires IsParam(nick) && NoCrLf(nick)
    requires |Utf8.Encode(Compose(["NICK", nick], None))| <= MaxBody
    ensures var bs := WriteLine(["NICK", nick], None);
      ParseLine(StripCR(Utf8.DecodeIgnore(bs[..|bs| - 1]))) == Ok(Parsed(None, "", ["NICK", nick]))
  {
    assert "NICK"[0] == 'N';
    WireRoundTrip(["NICK", nick], None);
  }

  /** The USER line reads back as USER, the user name, `+iw` and the nick,
      with the real name as its text. */
  lemma UserReadsBack(nick: string, user: string, name: string)
    requires IsParam(nick) && NoCrLf(nick) && IsParam(user) && NoCrLf(user) && NoCrLf(name)
    requires |Utf8.Encode(Compose(["USER", user, "+iw", nick], Some(name)))| <= MaxBody
    ensures var bs := WriteLine(["USER", user, "+iw", nick], Some(name));
      ParseLine(StripCR(Utf8.DecodeIgnore(bs[..|bs| - 1]))) == Ok(Parsed(None, name, ["USER", user, "+iw", nick]))
  {
    assert "USER"[0] == 'U' && "+iw"[0] == '+';
    WireRoundTrip(["USER", user, "+iw", nick], Some(name));
  }
}

=== FILE: lines.dfy ===
/** One protocol line in each direction: how `found_terminator` splits an
    incoming line and how `__write`/`write` build an outgoing one (irc.py). */
module Lines {
  import opened Strings
  import Utf8

  /** An incoming line split into its optional source, its trailing text and
      its whitespace-separated words (the command first). */
  datatype Parsed = Parsed(source: Option<string>, text: string, args: seq<string>)

  /** The two exceptions `found_terminator` can raise: the unpack of
      `line[1:].split(' ', 1)` when a prefixed line has no space (ValueError),
      and `args[0]` on a line without words (IndexError). */
  datatype Fault = NoSpaceAfterSource | NoCommand

  datatype ParseResult = Ok(parsed: Parsed) | Failed(fault: Fault)

  /** Drops one trailing carriage return, if there is one. */
  function StripCR(line: string): (r: string)
    ensures line == r || line == r + "\r"
    ensures line == r + "\r" <==> |line| > 0 && line[|line| - 1] == '\r'
  {
    if |line| > 0 && line[|line| - 1] == '\r' then
      assert line == line[..|line| - 1] + "\r";
      line[..|line| - 1]
    else line
  }

  /** Splits off the `:source` prefix: the text up to the first space. */
  function SplitSource(line: string): (r: Option<(Option<string>, string)>)
    ensures r.None? <==> StartsWith(line, ":") && ' ' !in line
    ensures r.Some? && r.value.0.None? ==> !StartsWith(line, ":") && r.value.1 == line
    ensures r.Some? && r.value.0.Some? ==>
      ' ' !in r.value.0.value && line == ":" + r.value.0.value + " " + r.value.1
  {
    if StartsWith(line, ":") then
      var i := IndexOf(line, ' ');
      if i == |line| then None
      else
        assert line[0] == ':' && i >= 1;
        assert line == ":" + line[1..i] + " " + line[i + 1..];
        assert line[1..i] == line[..i][1..];
        Some((Some(line[1..i]), line[i + 1..]))
    else Some((None, line))
  }

  /** Splits on the first `" :"`: the words before it and the trailing text
      after it, or the whole line and `""` when there is no such marker. */
  function SplitTrailing(line: string): (r: (string, string))
    ensures (forall j :: !OccursAt(line, " :", j)) ==> r == (line, "")
    ensures (exists j :: OccursAt(line, " :", j)) ==>
      line == r.0 + " :" + r.1 && forall j :: 0 <= j < |r.0| ==> !OccursAt(line, " :", j)
  {
    match SplitOnce(line, " :")
    case None => (line, "")
    case Some((argstr, text)) => (argstr, text)
  }

  /** `found_terminator`'s parse of a line whose trailing CR is already gone. */
  function ParseLine(line: string): (r: ParseResult)
    ensures r.Failed? <==> StartsWith(line, ":") && ' ' !in line
    ensures r.Failed? ==> r.fault == NoSpaceAfterSource
    ensures r.Ok? ==> (r.parsed.source.Some? <==> StartsWith(line, ":"))
    ensures r.Ok? ==> WellFormedWords(r.parsed.args)
  {
    match SplitSource(line)
    case None => Failed(NoSpaceAfterSource)
    case Some((source, rest)) =>
      var (argstr, text) := SplitTrailing(rest);
      Ok(Parsed(source, text, Words(argstr)))
  }

  // ---------------------------------------------------------------------------
  // Outgoing

  /** The string `__write` encodes: the words joined by single spaces, then
      `" :"` and the text when there is one. */
  function Compose(args: seq<string>, text: Option<string>): (r: string)
  {
    Join(args) + (if text.Some? then " :" + text.value else "")
  }

  const CR: byte := 13
  const LF: byte := 10
  /** 512 bytes per line, CR and LF included. */
  const MaxBody := 510

  /** `__write(args, text)`: the bytes pushed on the outgoing queue. */
  function FormatLine(args: seq<string>, text: Option<string>): (bs: seq<byte>)
    ensures 2 <= |bs| <= MaxBody + 2
    ensures bs[|bs| - 2..] == [CR, LF]
    ensures var e := Utf8.Encode(Compose(args, text));
      |bs| - 2 <= |e| && bs[..|bs| - 2] == e[..|bs| - 2]
      && (|e| <= MaxBody ==> bs == e + [CR, LF])
      && (|e| > MaxBody ==> |bs| == MaxBody + 2)
  {
    var e := Utf8.Encode(Compose(args, text));
    var body := if |e| <= MaxBody then e else e[..MaxBody];
    body + [CR, LF]
  }

  /** `[safe(arg) for arg in args]` */
  function SafeAll(args: seq<string>): (r: seq<string>)
    ensures |r| == |args|
    ensures forall k :: 0 <= k < |r| ==> NoCrLf(r[k]) && r[k] == Safe(Some(args[k]))
  {
    seq(|args|, k requires 0 <= k < |args| => Safe(Some(args[k])))
  }

  /** `write(args, text)`: every word and the text lose their CR and LF before
      `__write` formats them; an absent text stays absent. */
  function WriteLine(args: seq<string>, text: Option<string>): (bs: seq<byte>)
    ensures 2 <= |bs| <= MaxBody + 2 && bs[|bs| - 2..] == [CR, LF]
    ensures forall i :: 0 <= i < |bs| - 2 ==> bs[i] != CR && bs[i] != LF
  {
    var safeText := if text.Some? then Some(Safe(text)) else None;
    var bs := FormatLine(SafeAll(args), safeText);
    ComposeNoCrLf(SafeAll(args), safeText);
    EncodeNoCrLf(Compose(SafeAll(args), safeText));
    bs
  }

  lemma {:induction false} JoinNoCrLf(ws: seq<string>)
    requires forall k :: 0 <= k < |ws| ==> NoCrLf(ws[k])
    ensures NoCrLf(Join(ws))
  {
    if |ws| > 1 {
      JoinNoCrLf(ws[1..]);
    }
  }

  lemma ComposeNoCrLf(args: seq<string>, text: Option<string>)
    requires forall k :: 0 <= k < |args| ==> NoCrLf(args[k])
    requires text.Some? ==> NoCrLf(text.value)
    ensures NoCrLf(Compose(args, text))
  {
    JoinNoCrLf(args);
  }

  /** No CR or LF byte appears in the encoding of a string without CR and LF:
      the bytes of a multi-byte character are all 0x80 or above. */
  lemma {:induction false} EncodeNoCrLf(s: string)
    requires NoCrLf(s)
    ensures forall i :: 0 <= i < |Utf8.Encode(s)| ==> Utf8.Encode(s)[i] != CR && Utf8.Encode(s)[i] != LF
  {
    if s != [] {
      EncodeNoCrLf(s[1..]);
      var e := Utf8.EncodeChar(s[0]);
      assert forall i :: 0 <= i < |e| ==> e[i] != CR && e[i] != LF;
    }
  }

  // ---------------------------------------------------------------------------
  // Round trips between the two directions

  /** A word that can stand as a parameter: not empty, no whitespace, and not
      starting with `:` (which would open the trailing text). */
  predicate IsParam(w: string) {
    w != [] && NoSpace(w) && w[0] != ':'
  }

  predicate Params(ws: seq<string>) {
    forall k :: 0 <= k < |ws| ==> IsParam(ws[k])
  }

  lemma {:induction false} JoinShape(ws: seq<string>)
    requires Params(ws) && ws != []
    ensures Join(ws) != [] && Join(ws)[0] == ws[0][0] && Join(ws)[0] != ':'
    ensures !IsSpace(Join(ws)[|Join(ws)| - 1])
  {
    if |ws| > 1 {
      JoinShape(ws[1..]);
    }
  }

  /** Parameters joined by spaces never contain the `" :"` marker. */
  lemma {:induction false} NoMarkInJoin(ws: seq<string>)
    requires Params(ws)
    ensures forall j :: !OccursAt(Join(ws), " :", j)
  {
    if |ws| > 1 {
      var w := ws[0];
      var rest := Join(ws[1..]);
      var s := Join(ws);
      NoMarkInJoin(ws[1..]);
      JoinShape(ws[1..]);
      assert s == w + " " + rest;
      forall j: nat ensures !OccursAt(s, " :", j) {
        NoMarkAt(w, rest, j);
      }
    } else if |ws| == 1 {
      forall j: nat ensures !OccursAt(Join(ws), " :", j) {
        if j + 2 <= |ws[0]| {
          assert Join(ws)[j..j + 2][0] == ws[0][j] && !IsSpace(ws[0][j]);
        }
      }
    }
  }

  lemma NoMarkAt(w: string, rest: string, j: nat)
    requires IsParam(w) && rest != [] && rest[0] != ':'
    requires forall k :: !OccursAt(rest, " :", k)
    ensures !OccursAt(w + " " + rest, " :", j)
  {
    var s := w + " " + rest;
    if j + 2 <= |s| {
      var m := s[j..j + 2];
      if j < |w| {
        assert m[0] == w[j] && !IsSpace(w[j]);
      } else if j == |w| {
        assert m[1] == rest[0];
      } else {
        assert m[0] == rest[j - |w| - 1] && m[1] == rest[j - |w|];
        assert !OccursAt(rest, " :", j - |w| - 1);
      }
    }
  }

  /** In a composed line no marker starts inside the words. */
  lemma NoMarkBeforeText(args: seq<string>, text: string)
    requires Params(args)
    ensures forall j :: 0 <= j < |Join(args)| ==> !OccursAt(Compose(args, Some(text)), " :", j)
  {
    var a := Join(args);
    var s := Compose(args, Some(text));
    NoMarkInJoin(args);
    assert s == a + " :" + text;
    forall j: nat | j < |a| ensures !OccursAt(s, " :", j) {
      if j + 2 <= |a| {
        assert s[j..j + 2] == a[j..j + 2];
        assert !OccursAt(a, " :", j);
      } else {
        assert args != [];
        JoinShape(args);
        assert s[j..j + 2][0] == a[|a| - 1];
      }
    }
  }

  lemma SplitTrailingOfComposed(args: seq<string>, text: string)
    requires Params(args)
    ensures SplitTrailing(Compose(args, Some(text))) == (Join(args), text)
  {
    var a := Join(args);
    var s := Compose(args, Some(text));
    assert s == a + " :" + text;
    assert OccursAt(s, " :", |a|);
    NoMarkBeforeText(args, text);
    var r := SplitTrailing(s);
    // the first marker is the one after the words
    assert s[|r.0|..|r.0| + 2] == " :";
    assert OccursAt(s, " :", |r.0|);
    assert |r.0| == |a|;
    assert r.0 == s[..|a|] == a;
    assert r.1 == s[|a| + 2..] == text;
  }

  /** An outgoing line the bot composes parses back into the same words and
      text (an absent text reads back as the empty one). */
  lemma ParseOfComposed(args: seq<string>, text: Option<string>)
    requires Params(args)
    ensures ParseLine(Compose(args, text)) == Ok(Parsed(None, text.GetOr(""), args))
  {
    if text.Some? {
      ParseOfComposedText(args, text.value);
    } else {
      assert Compose(args, text) == Join(args) + "";
      assert Join(args) + "" == Join(args);
      ParseOfWords(args);
    }
  }

  lemma ParseOfComposedText(args: seq<string>, text: string)
    requires Params(args)
    ensures ParseLine(Compose(args, Some(text))) == Ok(Parsed(None, text, args))
  {
    var s := Compose(args, Some(text));
    if args != [] {
      JoinShape(args);
      assert s[0] == Join(args)[0];
    } else {
      assert s == " :" + text;
    }
    assert s[..1] == [s[0]];
    SplitTrailingOfComposed(args, text);
    WordsOfJoin(args);
  }

  lemma ParseOfWords(args: seq<string>)
    requires Params(args)
    ensures ParseLine(Join(args)) == Ok(Parsed(None, "", args))
  {
    var s := Join(args);
    if args != [] {
      JoinShape(args);
      assert s[..1] == [s[0]];
    }
    NoMarkInJoin(args);
    WordsOfJoin(args);
  }

  /** The same with a `:source` prefix in front, as a server sends it, with or
      without a trailing text. */
  lemma ParseOfPrefixed(source: string, args: seq<string>, text: Option<string>)
    requires ' ' !in source && Params(args)
    ensures ParseLine(":" + source + " " + Compose(args, text))
            == Ok(Parsed(Some(source), text.GetOr(""), args))
  {
    var rest := Compose(args, text);
    var line := ":" + source + " " + rest;
    var i := |source| + 1;
    assert line[..i] == ":" + source;
    IndexOfFirst(line, ' ', i);
    assert line[1..i] == source;
    assert line[i + 1..] == rest;
    assert line[..1] == ":";
    if text.Some? {
      SplitTrailingOfComposed(args, text.value);
    } else {
      assert rest == Join(args) + "" == Join(args);
      NoMarkInJoin(args);
    }
    WordsOfJoin(args);
  }

  /** `write` leaves parts without CR and LF alone: a line that fits is its
      encoding followed by CR LF. */
  lemma WriteLineOfClean(args: seq<string>, text: Option<string>)
    requires forall k :: 0 <= k < |args| ==> NoCrLf(args[k])
    requires text.Some? ==> NoCrLf(text.value)
    requires |Utf8.Encode(Compose(args, text))| <= MaxBody
    ensures WriteLine(args, text) == Utf8.Encode(Compose(args, text)) + [CR, LF]
  {
    forall k | 0 <= k < |args| ensures SafeAll(args)[k] == args[k] {
      RemoveBreaksKeepsClean(args[k]);
    }
    assert SafeAll(args) == args;
    if text.Some? {
      RemoveBreaksKeepsClean(text.value);
      assert Safe(text) == text.value;
    }
  }

  /** A line read back from the wire: everything up to the LF, decoded, with
      its CR stripped, is the text that was encoded. The text holds no CR or
      LF, so its only LF is the terminator, where the reader frames it. */
  lemma ReadBack(s: string)
    requires NoCrLf(s)
    ensures var bs := Utf8.Encode(s) + [CR, LF];
      StripCR(Utf8.DecodeIgnore(bs[..|bs| - 1])) == s
  {
    var e := Utf8.Encode(s);
    var bs := e + [CR, LF];
    assert bs[..|bs| - 1] == e + [CR];
    Utf8.EncodeAppend(s, "\r");
    assert Utf8.Encode("\r") == [CR];
    Utf8.DecodeIgnoreOfEncode(s + "\r");
    assert StripCR(s + "\r") == s;
  }

  /** A composed line of clean words and text reads back from the wire. */
  lemma ReadBackOfComposed(args: seq<string>, text: Option<string>)
    requires forall k :: 0 <= k < |args| ==> NoCrLf(args[k])
    requires text.Some? ==> NoCrLf(text.value)
    ensures var bs := Utf8.Encode(Compose(args, text)) + [CR, LF];
      StripCR(Utf8.DecodeIgnore(bs[..|bs| - 1])) == Compose(args, text)
  {
    var c := Compose(args, text);
    assert NoCrLf(c) by {
      ComposeNoCrLf(args, text);
    }
    ReadBack(c);
  }

  /** Written, framed and read back: a line that fits in 510 bytes survives the
      wire unchanged. */
  lemma WireRoundTrip(args: seq<string>, text: Option<string>)
    requires Params(args) && (forall k :: 0 <= k < |args| ==> NoCrLf(args[k]))
    requires text.Some? ==> NoCrLf(text.value)
    requires |Utf8.Encode(Compose(args, text))| <= MaxBody
    ensures var bs := WriteLine(args, text);
      ParseLine(StripCR(Utf8.DecodeIgnore(bs[..|bs| - 1]))) == Ok(Parsed(None, text.GetOr(""), args))
  {
    WriteLineOfClean(args, text);
    ReadBackOfComposed(args, text);
    ParseOfComposed(args, text);
  }
}

=== FILE: origin.dfy ===
/** Who sent an incoming line and where a reply to it goes (irc.py, class Origin). */
module Origins {
  import opened Strings

  datatype Origin = Origin(
    nick: string,
    user: string,
    host: string,
    hostmask: string,      // the raw source, "" when the line had none
    sender: Option<string> // the reply target; None when the line names no target
  )

  /** The part of `([^@]*)@?(.*)` that follows the `!`: the user runs to the
      first `@`, the host from there to the end of the line. */
  function UserAndHost(r: string): (g: (string, string))
    ensures '@' !in g.0 && '\n' !in g.1
    ensures '@' !in r ==> g == (r, "")
  {
    var j := IndexOf(r, '@');
    if j == |r| then
      assert r[..j] == r;
      (r, "")
    else
      var t := r[j + 1..];
      (r[..j], t[..IndexOf(t, '\n')])
  }

  /** With an `@` in the text, the user is everything before the first one and
      the host everything after it up to the first newline or the end. */
  lemma UserAndHostAtSign(r: string)
    requires '@' in r
    ensures var (user, host) := UserAndHost(r);
      var j := |user|;
      j < |r| && r[..j] == user && r[j] == '@'
      && j + 1 + |host| <= |r| && r[j + 1..j + 1 + |host|] == host
      && (j + 1 + |host| == |r| || r[j + 1 + |host|] == '\n')
  {
    var j := IndexOf(r, '@');
    var t := r[j + 1..];
    var m := IndexOf(t, '\n');
    assert r[j + 1..j + 1 + m] == t[..m];
    assert j + 1 + m < |r| ==> r[j + 1 + m] == t[m];
  }

  /** The groups of `([^!]*)!?([^@]*)@?(.*)` matched at the start of `s`. The
      pattern always matches, and since every part after the first group is
      optional the greedy choices are final: the nick runs to the first `!`, the
      user from there to the next `@`, and the host from there to the end of the
      line (`.` stops at a newline). */
  function SourceGroups(s: string): (g: (string, string, string))
    ensures '!' !in g.0 && '@' !in g.1 && '\n' !in g.2
    ensures '!' !in s ==> g == (s, "", "")
  {
    var i := IndexOf(s, '!');
    if i == |s| then
      assert s[..i] == s;
      (s, "", "")
    else
      var uh := UserAndHost(s[i + 1..]);
      (s[..i], uh.0, uh.1)
  }

  /** With a `!` in the source, the nick is everything before the first one
      and the user and host are taken from the rest. */
  lemma SourceGroupsAtBang(s: string)
    requires '!' in s
    ensures var (nick, user, host) := SourceGroups(s);
      var i := |nick|;
      i < |s| && s[..i] == nick && s[i] == '!' && (user, host) == UserAndHost(s[i + 1..])
  {
  }

  /** A `user@host` remainder splits back into its two parts. */
  lemma UserAndHostOfMask(user: string, host: string)
    requires '@' !in user && '\n' !in host
    ensures UserAndHost(user + "@" + host) == (user, host)
  {
    var r := user + "@" + host;
    assert IndexOf(r, '@') == |user| by {
      assert r[..|user|] == user;
      IndexOfFirst(r, '@', |user|);
    }
    var t := r[|user| + 1..];
    assert t == host;
    assert IndexOf(t, '\n') == |t|;
    assert r[..|user|] == user;
    assert t[..|t|] == t;
  }

  /** A full `nick!user@host` source splits back into its three parts. */
  lemma SourceGroupsOfFullMask(nick: string, user: string, host: string)
    requires '!' !in nick && '@' !in user && '\n' !in host
    ensures SourceGroups(nick + "!" + user + "@" + host) == (nick, user, host)
  {
    var r := user + "@" + host;
    var s := nick + "!" + user + "@" + host;
    assert s == nick + "!" + r;
    assert s[..|nick|] == nick && s[|nick|] == '!' && s[|nick| + 1..] == r;
    IndexOfFirst(s, '!', |nick|);
    UserAndHostOfMask(user, host);
    assert SourceGroups(s) == (s[..|nick|], UserAndHost(r).0, UserAndHost(r).1);
  }

  /** `Origin(bot, source, args)`: `source` is the text after a leading `:`
      (None when the line had no prefix), `args` the command and its
      parameters. A target equal to the bot's own nick is a private message, so
      the reply goes back to the sender's nick. */
  function MakeOrigin(botNick: string, source: Option<string>, args: seq<string>): (o: Origin)
    ensures (o.nick, o.user, o.host) == SourceGroups(source.GetOr(""))
    ensures o.hostmask == source.GetOr("")
    ensures o.sender.None? <==> |args| <= 1
    ensures |args| > 1 && args[1] != botNick ==> o.sender == Some(args[1])
    ensures |args| > 1 && args[1] == botNick ==> o.sender == Some(o.nick)
    ensures o.sender == Some(botNick) ==> o.nick == botNick
  {
    var raw := source.GetOr("");
    var (nick, user, host) := SourceGroups(raw);
    var target := if |args| > 1 then Some(args[1]) else None;
    var sender := if target == Some(botNick) then Some(nick) else target;
    Origin(nick, user, host, raw, sender)
  }
}

=== FILE: report.dfy ===
/** The one-line report `Bot.error` sends when a handler fails (irc.py):
    the last line of the traceback, then the innermost `File "/..."` line in
    parentheses, or "source unknown" when there is none. The traceback text is
    a parameter (it comes from `traceback.format_exc()`). */
module Reports {
  import opened Strings

  const FramePrefix := "File \"/"
  const Unknown := "source unknown"
  const Fallback := "Got an error."

  /** A stripped traceback line that names a frame in a file with an absolute path. */
  predicate IsFrame(line: string) {
    StartsWith(line, FramePrefix)
  }

  /** Every line stripped, as the loop in `error` strips each line it looks at. */
  function StripAll(ls: seq<string>): (ss: seq<string>)
    ensures |ss| == |ls|
    ensures forall k :: 0 <= k < |ls| ==> ss[k] == Strip(ls[k])
  {
    seq(|ls|, k requires 0 <= k < |ls| => Strip(ls[k]))
  }

  /** The index of the bottom-most frame line: the first one met when the lines
      are walked in reverse. */
  function FrameIndex(ls: seq<string>): (k: Option<nat>)
    ensures k.Some? ==>
      (k.value < |ls| && IsFrame(ls[k.value]) && forall j :: k.value < j < |ls| ==> !IsFrame(ls[j]))
    ensures k.None? ==> forall j :: 0 <= j < |ls| ==> !IsFrame(ls[j])
  {
    if ls == [] then None
    else if IsFrame(ls[|ls| - 1]) then Some(|ls| - 1)
    else FrameIndex(ls[..|ls| - 1])
  }

  /** `line[0].lower() + line[1:]` for a frame line, whose first character is `F`. */
  function Lowered(frame: string): (r: string)
    requires StartsWith(frame, FramePrefix)
    ensures r == "file \"/" + frame[|FramePrefix|..]
  {
    assert frame == FramePrefix + frame[|FramePrefix|..];
    "f" + frame[1..]
  }

  /** The report text, or None when composing it raises (an empty traceback
      has no last line). */
  function Report(trace: string): (r: Option<string>)
    ensures r.None? <==> trace == ""
  {
    ReportOfLines(SplitLines(trace))
  }

  function ReportOfLines(ls: seq<string>): (r: Option<string>)
    ensures r.None? <==> ls == []
  {
    if ls == [] then None
    else
      var ss := StripAll(ls);
      var source := match FrameIndex(ss)
        case Some(k) => Lowered(ss[k])
        case None => Unknown;
      Some(ss[|ss| - 1] + " (" + source + ")")
  }

  /** What `error` sends: the report, or "Got an error." when composing it fails. */
  function ErrorText(trace: string): (t: string)
    ensures trace == "" <==> t == Fallback
  {
    match Report(trace)
    case Some(r) =>
      assert r[|r| - 1] == ')';
      r
    case None => Fallback
  }

  /** A frame line with no frame line after it is the one found. */
  lemma {:induction false} FrameIndexIs(ls: seq<string>, k: nat)
    requires k < |ls| && IsFrame(ls[k])
    requires forall j :: k < j < |ls| ==> !IsFrame(ls[j])
    ensures FrameIndex(ls) == Some(k)
  {
    if k < |ls| - 1 {
      var init := ls[..|ls| - 1];
      assert !IsFrame(ls[|ls| - 1]);
      assert init[k] == ls[k];
      assert forall j :: k < j < |init| ==> init[j] == ls[j];
      FrameIndexIs(init, k);
    }
  }

  /** A traceback split into its lines gives those lines back. */
  lemma ReportOfTerminated(ls: seq<string>)
    requires forall j :: 0 <= j < |ls| ==> NoLineBreak(ls[j])
    ensures Report(Terminated(ls)) == ReportOfLines(ls)
  {
    SplitLinesOfTerminated(ls);
  }

  /** The line in parentheses is the last line that strips to a frame. */
  lemma ReportOfLinesWithFrame(ls: seq<string>, k: nat)
    requires k < |ls| && IsFrame(Strip(ls[k]))
    requires forall j :: k < j < |ls| ==> !IsFrame(Strip(ls[j]))
    ensures ReportOfLines(ls) == Some(Strip(ls[|ls| - 1]) + " (" + Lowered(Strip(ls[k])) + ")")
  {
    var ss := StripAll(ls);
    forall j | k < j < |ss| ensures !IsFrame(ss[j]) {
      assert ss[j] == Strip(ls[j]);
    }
    FrameIndexIs(ss, k);
  }

  /** The report names the innermost frame: a line that strips to a frame,
      followed only by lines that do not, is the one in parentheses, with its
      first letter in lower case. */
  lemma ReportNamesInnermostFrame(before: seq<string>, frame: string, after: seq<string>)
    requires IsFrame(Strip(frame))
    requires forall j :: 0 <= j < |after| ==> !IsFrame(Strip(after[j]))
    requires forall l :: l in before + [frame] + after ==> NoLineBreak(l)
    ensures var ls := before + [frame] + after;
      Report(Terminated(ls)) == Some(Strip(ls[|ls| - 1]) + " (" + Lowered(Strip(frame)) + ")")
  {
    var ls := before + [frame] + after;
    forall k | 0 <= k < |ls| ensures NoLineBreak(ls[k]) {
      assert ls[k] in ls;
    }
    ReportOfTerminated(ls);
    forall j | |before| < j < |ls| ensures !IsFrame(Strip(ls[j])) {
      assert ls[j] == after[j - |before| - 1];
    }
    assert ls[|before|] == frame;
    ReportOfLinesWithFrame(ls, |before|);
  }

  /** Without any frame line the report says "source unknown". */
  lemma ReportWithoutFrame(ls: seq<string>)
    requires ls != []
    requires forall j :: 0 <= j < |ls| ==> !IsFrame(Strip(ls[j])) && NoLineBreak(ls[j])
    ensures Report(Terminated(ls)) == Some(Strip(ls[|ls| - 1]) + " (" + Unknown + ")")
  {
    ReportOfTerminated(ls);
    var ss := StripAll(ls);
    forall j | 0 <= j < |ss| ensures !IsFrame(ss[j]) {
      assert ss[j] == Strip(ls[j]);
    }
    assert FrameIndex(ss) == None;
  }

  /** `error`'s composition as the source writes it: walk the lines from the
      last one up, strip each, and stop at the first frame line. */
  method ComposeReport(trace: string) returns (r: Option<string>)
    ensures r == Report(trace)
  {
    var lines := SplitLines(trace);
    if |lines| == 0 {
      return None;
    }
    ghost var ss := StripAll(lines);
    var source := Unknown;
    var i := |lines|;
    while i > 0
      invariant 0 <= i <= |lines|
      invariant forall j :: i <= j < |lines| ==> !IsFrame(ss[j])
    {
      var line := Strip(lines[i - 1]);
      if StartsWith(line, FramePrefix) {
        source := Lowered(line);
        FrameIndexIs(ss, i - 1);
        break;
      }
      i := i - 1;
    }
    r := Some(Strip(lines[|lines| - 1]) + " (" + source + ")");
  }
}

=== FILE: strings.dfy ===
/** The small part of Python's `str` and `list` behaviour the bot relies on:
    `isspace`, `split()`, `' '.join`, `splitlines`, `strip`, `startswith`,
    `in`/`split(sep, 1)`, `list.count` and negative slicing. */
module Strings {

  datatype Option<+T> = None | Some(value: T) {
    function GetOr(default: T): T {
      match this
      case Some(v) => v
      case None => default
    }
  }

  /** A byte of an encoded line. */
  newtype byte = x: int | 0 <= x < 256

  /** The characters `str.isspace()` accepts; the regex class `\s` accepts the same ones. */
  predicate IsSpace(c: char) {
    var n := c as int;
    n == 0x20 || 0x09 <= n <= 0x0D || 0x1C <= n <= 0x1F || n == 0x85 || n == 0xA0
    || n == 0x1680 || 0x2000 <= n <= 0x200A || n == 0x2028 || n == 0x2029
    || n == 0x202F || n == 0x205F || n == 0x3000
  }

  /** The characters at which `str.splitlines()` ends a line. */
  predicate IsLineBreak(c: char) {
    var n := c as int;
    0x0A <= n <= 0x0D || 0x1C <= n <= 0x1E || n == 0x85 || n == 0x2028 || n == 0x2029
  }

  predicate NoSpace(w: string) {
    forall i :: 0 <= i < |w| ==> !IsSpace(w[i])
  }

  predicate StartsWith(s: string, prefix: string) {
    |prefix| <= |s| && s[..|prefix|] == prefix
  }

  // ---------------------------------------------------------------------------
  // s.split()  (no separator: runs of whitespace, no empty words)

  /** Length of the run of non-space characters that starts `s`. */
  function WordLen(s: string): (n: nat)
    ensures n <= |s|
    ensures forall i :: 0 <= i < n ==> !IsSpace(s[i])
    ensures n == |s| || IsSpace(s[n])
  {
    if s == [] || IsSpace(s[0]) then 0 else 1 + WordLen(s[1..])
  }

  /** Python's `s.split()`. */
  function Words(s: string): (r: seq<string>)
    ensures forall k :: 0 <= k < |r| ==> r[k] != [] && NoSpace(r[k])
    decreases |s|
  {
    if s == [] then []
    else if IsSpace(s[0]) then Words(s[1..])
    else
      var n := WordLen(s);
      [s[..n]] + Words(s[n..])
  }

  /** The total length of the words. */
  function Width(ws: seq<string>): nat {
    if ws == [] then 0 else |ws[0]| + Width(ws[1..])
  }

  /** Python's `' '.join(ws)`. */
  function Join(ws: seq<string>): string {
    if ws == [] then ""
    else if |ws| == 1 then ws[0]
    else ws[0] + " " + Join(ws[1..])
  }

  /** The words with exactly one separator between each two of them. */
  lemma {:induction false} JoinWidth(ws: seq<string>)
    requires ws != []
    ensures |Join(ws)| == Width(ws) + |ws| - 1
  {
    if |ws| > 1 {
      JoinWidth(ws[1..]);
    }
  }

  predicate WellFormedWords(ws: seq<string>) {
    forall k :: 0 <= k < |ws| ==> ws[k] != [] && NoSpace(ws[k])
  }

  lemma WordsOfWordThenRest(w: string, rest: string)
    requires w != [] && NoSpace(w)
    requires rest == [] || IsSpace(rest[0])
    ensures Words(w + rest) == [w] + Words(rest)
  {
    var s := w + rest;
    assert WordLen(s) == |w| by {
      WordLenOfPrefix(w, rest);
    }
    assert s[..|w|] == w;
    assert s[|w|..] == rest;
  }

  /** Leading whitespace, however long, is skipped. */
  lemma {:induction false} WordsOfLeadingSpace(sp: string, s: string)
    requires forall i :: 0 <= i < |sp| ==> IsSpace(sp[i])
    ensures Words(sp + s) == Words(s)
    decreases |sp|
  {
    if sp == [] {
      assert sp + s == s;
    } else {
      var t := sp + s;
      WordsOfLeadingSpace(sp[1..], s);
      assert t[0] == sp[0] && IsSpace(t[0]);
      assert t[1..] == sp[1..] + s;
      assert Words(t) == Words(t[1..]);
    }
  }

  /** A run of whitespace of any length separates two words, and yields no
      empty word. */
  lemma WordsOfSpaceRun(w: string, sp: string, rest: string)
    requires w != [] && NoSpace(w)
    requires sp != [] && forall i :: 0 <= i < |sp| ==> IsSpace(sp[i])
    ensures Words(w + sp + rest) == [w] + Words(rest)
  {
    WordsOfWordThenRest(w, sp + rest);
    WordsOfLeadingSpace(sp, rest);
    assert w + sp + rest == w + (sp + rest);
  }

  lemma {:induction false} WordLenOfPrefix(w: string, rest: string)
    requires NoSpace(w)
    requires rest == [] || IsSpace(rest[0])
    ensures WordLen(w + rest) == |w|
  {
    if w != [] {
      assert (w + rest)[1..] == w[1..] + rest;
      WordLenOfPrefix(w[1..], rest);
    } else {
      assert w + rest == rest;
    }
  }

  /** Splitting a space-joined list of well-formed words gives the words back. */
  lemma {:induction false} WordsOfJoin(ws: seq<string>)
    requires WellFormedWords(ws)
    ensures Words(Join(ws)) == ws
  {
    if ws == [] {
    } else if |ws| == 1 {
      WordLenOfPrefix(ws[0], "");
      assert ws[0] + "" == ws[0];
      WordsOfWordThenRest(ws[0], "");
    } else {
      var rest := Join(ws[1..]);
      WordLenOfPrefix(ws[0], " " + rest);
      WordsOfWordThenRest(ws[0], " " + rest);
      assert (" " + rest)[1..] == rest;
      WordsOfJoin(ws[1..]);
      assert ws[0] + " " + rest == ws[0] + (" " + rest);
    }
  }

  /** The index of the first `c` in `s`, or `|s|` when there is none. */
  function IndexOf(s: string, c: char): (n: nat)
    ensures n <= |s|
    ensures c !in s[..n]
    ensures n == |s| || s[n] == c
    ensures n == |s| <==> c !in s
  {
    if s == [] then 0
    else if s[0] == c then 0
    else
      assert s[1..][..IndexOf(s[1..], c)] == s[1..1 + IndexOf(s[1..], c)];
      1 + IndexOf(s[1..], c)
  }

  lemma IndexOfFirst(s: string, c: char, k: nat)
    requires k < |s| && s[k] == c && c !in s[..k]
    ensures IndexOf(s, c) == k
  {
  }

  // ---------------------------------------------------------------------------
  // 'sep' in s, s.split(sep, 1)

  predicate OccursAt(s: string, pat: string, i: nat) {
    i + |pat| <= |s| && s[i..i + |pat|] == pat
  }

  function FindFrom(s: string, pat: string, i: nat): (r: Option<nat>)
    requires i <= |s|
    ensures r.Some? ==> i <= r.value && OccursAt(s, pat, r.value)
    ensures r.Some? ==> forall j :: i <= j < r.value ==> !OccursAt(s, pat, j)
    ensures r.None? ==> forall j :: i <= j ==> !OccursAt(s, pat, j)
    decreases |s| - i
  {
    if i + |pat| > |s| then None
    else if s[i..i + |pat|] == pat then Some(i)
    else if i == |s| then None
    else FindFrom(s, pat, i + 1)
  }

  /** The index of the first occurrence of `pat` in `s`, if there is one. */
  function Find(s: string, pat: string): (r: Option<nat>)
    ensures r.Some? ==> OccursAt(s, pat, r.value)
    ensures r.Some? ==> forall j :: 0 <= j < r.value ==> !OccursAt(s, pat, j)
    ensures r.None? <==> forall j :: !OccursAt(s, pat, j)
  {
    FindFrom(s, pat, 0)
  }

  /** `s.split(sep, 1)` when `sep in s`: the text before and after the first `sep`. */
  function SplitOnce(s: string, sep: string): (r: Option<(string, string)>)
    ensures r.Some? ==> r.value.0 + sep + r.value.1 == s
    ensures r.Some? ==> forall j :: 0 <= j < |r.value.0| ==> !OccursAt(s, sep, j)
    ensures r.None? <==> forall j :: !OccursAt(s, sep, j)
  {
    match Find(s, sep)
    case None => None
    case Some(i) =>
      assert s == s[..i] + s[i..i + |sep|] + s[i + |sep|..];
      Some((s[..i], s[i + |sep|..]))
  }

  // ---------------------------------------------------------------------------
  // The `safe` helper: s.replace('\n', '').replace('\r', '')

  function RemoveBreaks(s: string): (r: string)
    ensures forall i :: 0 <= i < |r| ==> r[i] != '\n' && r[i] != '\r'
    ensures |r| <= |s|
  {
    if s == [] then []
    else if s[0] == '\n' || s[0] == '\r' then RemoveBreaks(s[1..])
    else [s[0]] + RemoveBreaks(s[1..])
  }

  predicate NoCrLf(s: string) {
    forall i :: 0 <= i < |s| ==> s[i] != '\n' && s[i] != '\r'
  }

  /** Removing breaks leaves a break-free string alone, so it is idempotent. */
  lemma {:induction false} RemoveBreaksKeepsClean(s: string)
    requires NoCrLf(s)
    ensures RemoveBreaks(s) == s
  {
    if s != [] {
      RemoveBreaksKeepsClean(s[1..]);
    }
  }

  /** Removing breaks works piecewise: the pieces are not reordered. */
  lemma {:induction false} RemoveBreaksAppend(a: string, b: string)
    ensures RemoveBreaks(a + b) == RemoveBreaks(a) + RemoveBreaks(b)
  {
    if a == [] {
      assert a + b == b;
    } else {
      assert (a + b)[1..] == a[1..] + b;
      RemoveBreaksAppend(a[1..], b);
    }
  }

  /** A lone CR or LF is deleted, not replaced. */
  lemma RemoveBreaksOfBreak(c: char)
    requires c == '\r' || c == '\n'
    ensures RemoveBreaks([c]) == []
  {
  }

  /** A break anywhere is deleted and the text on either side is joined up,
      so `"hello\r\nworld"` becomes `"helloworld"`. */
  lemma RemoveBreaksDropsBreak(a: string, c: char, b: string)
    requires c == '\r' || c == '\n'
    ensures RemoveBreaks(a + [c] + b) == RemoveBreaks(a) + RemoveBreaks(b)
  {
    RemoveBreaksAppend(a + [c], b);
    RemoveBreaksAppend(a, [c]);
    RemoveBreaksOfBreak(c);
    assert RemoveBreaks(a) + [] == RemoveBreaks(a);
  }

  /** Python's `safe(input)`: `None` or `""` become `""`, otherwise CR and LF are removed. */
  function Safe(input: Option<string>): (r: string)
    ensures NoCrLf(r)
    ensures input.None? ==> r == ""
  {
    match input
    case None => ""
    case Some(s) => RemoveBreaks(s)
  }

  /** `safe` deletes a CR or LF and joins up the text around it. */
  lemma SafeDropsBreak(a: string, c: char, b: string)
    requires c == '\r' || c == '\n'
    ensures Safe(Some(a + [c] + b)) == Safe(Some(a)) + Safe(Some(b))
  {
    RemoveBreaksDropsBreak(a, c, b);
  }

  // ---------------------------------------------------------------------------
  // s.strip()

  function LeadingSpaces(s: string): (n: nat)
    ensures n <= |s|
    ensures forall i :: 0 <= i < n ==> IsSpace(s[i])
    ensures n == |s| || !IsSpace(s[n])
  {
    if s == [] || !IsSpace(s[0]) then 0 else 1 + LeadingSpaces(s[1..])
  }

  /** Python's `s.strip()`: spaces come off the front, then off the back. */
  function Strip(s: string): string
    decreases |s|
  {
    if s != [] && IsSpace(s[0]) then Strip(s[1..])
    else if s != [] && IsSpace(s[|s| - 1]) then Strip(s[..|s| - 1])
    else s
  }

  /** What stripping leaves is a slice of the text that starts after the
      leading spaces and neither starts nor ends in a space. */
  predicate IsMiddle(s: string, r: string) {
    var a := LeadingSpaces(s);
    a + |r| <= |s| && s[a..a + |r|] == r
    && (r == [] || (!IsSpace(r[0]) && !IsSpace(r[|r| - 1])))
  }

  lemma {:induction false} StripIsMiddle(s: string)
    ensures IsMiddle(s, Strip(s))
    decreases |s|, 1
  {
    if s != [] && IsSpace(s[0]) {
      StripIsMiddleFront(s);
    } else if s != [] && IsSpace(s[|s| - 1]) {
      StripIsMiddleBack(s);
    } else {
      assert LeadingSpaces(s) == 0;
      assert s[0..|s|] == s;
    }
  }

  lemma {:induction false} StripIsMiddleFront(s: string)
    requires s != [] && IsSpace(s[0])
    ensures IsMiddle(s, Strip(s))
    decreases |s|, 0
  {
    var t := s[1..];
    StripIsMiddle(t);
    var r := Strip(t);
    var a := LeadingSpaces(t);
    assert Strip(s) == r;
    assert LeadingSpaces(s) == a + 1;
    assert s[a + 1..a + 1 + |r|] == t[a..a + |r|];
  }

  lemma {:induction false} StripIsMiddleBack(s: string)
    requires s != [] && !IsSpace(s[0]) && IsSpace(s[|s| - 1])
    ensures IsMiddle(s, Strip(s))
    decreases |s|, 0
  {
    var t := s[..|s| - 1];
    StripIsMiddle(t);
    var r := Strip(t);
    assert Strip(s) == r;
    assert t[0] == s[0];
    assert LeadingSpaces(s) == 0 && LeadingSpaces(t) == 0;
    assert s[..|r|] == t[..|r|];
  }

  /** Everything outside the slice `s[a..a + |r|]` is a space. */
  predicate SpacesAround(s: string, a: nat, r: string) {
    (forall i :: 0 <= i < a && i < |s| ==> IsSpace(s[i]))
    && (forall i :: a + |r| <= i < |s| ==> IsSpace(s[i]))
  }

  lemma {:induction false} StripRemovesSpaces(s: string)
    ensures SpacesAround(s, LeadingSpaces(s), Strip(s))
    decreases |s|, 1
  {
    if s != [] && IsSpace(s[0]) {
      StripRemovesSpacesFront(s);
    } else if s != [] && IsSpace(s[|s| - 1]) {
      StripRemovesSpacesBack(s);
    }
  }

  lemma {:induction false} StripRemovesSpacesFront(s: string)
    requires s != [] && IsSpace(s[0])
    ensures SpacesAround(s, LeadingSpaces(s), Strip(s))
    decreases |s|, 0
  {
    var t := s[1..];
    StripRemovesSpaces(t);
    assert Strip(s) == Strip(t);
    assert LeadingSpaces(s) == LeadingSpaces(t) + 1;
    assert forall i :: 0 < i < |s| ==> s[i] == t[i - 1];
  }

  lemma {:induction false} StripRemovesSpacesBack(s: string)
    requires s != [] && !IsSpace(s[0]) && IsSpace(s[|s| - 1])
    ensures SpacesAround(s, LeadingSpaces(s), Strip(s))
    decreases |s|, 0
  {
    var t := s[..|s| - 1];
    StripRemovesSpaces(t);
    StripIsMiddle(t);
    assert Strip(s) == Strip(t);
    assert t[0] == s[0];
    assert LeadingSpaces(s) == 0 && LeadingSpaces(t) == 0;
    assert forall i :: 0 <= i < |t| ==> s[i] == t[i];
  }

  /** Stripping takes away only spaces, and only at the two ends, and leaves
      the longest middle part that neither starts nor ends in a space. */
  lemma StripIsTrimmed(s: string)
    ensures var r := Strip(s);
      var a := LeadingSpaces(s);
      a + |r| <= |s| && s[a..a + |r|] == r
      && (forall i :: 0 <= i < a ==> IsSpace(s[i]))
      && (forall i :: a + |r| <= i < |s| ==> IsSpace(s[i]))
      && (r == [] || (!IsSpace(r[0]) && !IsSpace(r[|r| - 1])))
  {
    StripIsMiddle(s);
    StripRemovesSpaces(s);
  }

  // ---------------------------------------------------------------------------
  // s.splitlines()

  function BreakIndex(s: string): (n: nat)
    ensures n <= |s|
    ensures forall i :: 0 <= i < n ==> !IsLineBreak(s[i])
    ensures n == |s| || IsLineBreak(s[n])
  {
    if s == [] || IsLineBreak(s[0]) then 0 else 1 + BreakIndex(s[1..])
  }

  predicate NoLineBreak(l: string) {
    forall i :: 0 <= i < |l| ==> !IsLineBreak(l[i])
  }

  /** Python's `s.splitlines()`: "\r\n" is one break and a final break adds no empty line. */
  function SplitLines(s: string): (r: seq<string>)
    ensures forall k :: 0 <= k < |r| ==> NoLineBreak(r[k])
    ensures s == [] <==> r == []
    decreases |s|
  {
    if s == [] then []
    else
      var n := BreakIndex(s);
      if n == |s| then [s]
      else
        var k := if s[n] == '\r' && n + 1 < |s| && s[n + 1] == '\n' then n + 2 else n + 1;
        [s[..n]] + SplitLines(s[k..])
  }

  /** Each line followed by "\n". */
  function Terminated(ls: seq<string>): string {
    if ls == [] then "" else ls[0] + "\n" + Terminated(ls[1..])
  }

  /** `splitlines` undoes writing break-free lines each followed by a newline. */
  lemma {:induction false} SplitLinesOfTerminated(ls: seq<string>)
    requires forall k :: 0 <= k < |ls| ==> NoLineBreak(ls[k])
    ensures SplitLines(Terminated(ls)) == ls
  {
    if ls != [] {
      var tail := ls[1..];
      assert forall k :: 0 <= k < |tail| ==> tail[k] == ls[k + 1];
      SplitLinesOfTerminated(tail);
      assert Terminated(ls) == ls[0] + "\n" + Terminated(tail);
      SplitLinesOfFirst(ls[0], Terminated(tail));
      assert ls == [ls[0]] + tail;
    }
  }

  /** A break-free line followed by a newline is the first line. */
  lemma SplitLinesOfFirst(l: string, rest: string)
    requires NoLineBreak(l)
    ensures SplitLines(l + "\n" + rest) == [l] + SplitLines(rest)
  {
    var s := l + "\n" + rest;
    assert s == l + ("\n" + rest);
    BreakIndexOfPrefix(l, "\n" + rest);
    assert s[..|l|] == l && s[|l|] == '\n';
    assert s[|l| + 1..] == rest;
  }

  /** A break-free line followed by CR LF is the first line: the pair is one
      break. */
  lemma SplitLinesOfFirstCrLf(l: string, rest: string)
    requires NoLineBreak(l)
    ensures SplitLines(l + "\r\n" + rest) == [l] + SplitLines(rest)
  {
    var s := l + "\r\n" + rest;
    assert s == l + ("\r\n" + rest);
    BreakIndexOfPrefix(l, "\r\n" + rest);
    assert s[..|l|] == l && s[|l|] == '\r' && s[|l| + 1] == '\n';
    assert s[|l| + 2..] == rest;
  }

  lemma {:induction false} BreakIndexOfPrefix(l: string, rest: string)
    requires NoLineBreak(l)
    requires rest != [] && IsLineBreak(rest[0])
    ensures BreakIndex(l + rest) == |l|
  {
    if l != [] {
      assert (l + rest)[1..] == l[1..] + rest;
      BreakIndexOfPrefix(l[1..], rest);
    } else {
      assert l + rest == rest;
    }
  }

  // ---------------------------------------------------------------------------
  // list.count and xs[-n:]

  function Count<T(==)>(xs: seq<T>, x: T): (n: nat)
    ensures n <= |xs|
  {
    if xs == [] then 0 else (if xs[0] == x then 1 else 0) + Count(xs[1..], x)
  }

  lemma {:induction false} CountAppend<T>(xs: seq<T>, ys: seq<T>, x: T)
    ensures Count(xs + ys, x) == Count(xs, x) + Count(ys, x)
  {
    if xs == [] {
      assert xs + ys == ys;
    } else {
      assert (xs + ys)[1..] == xs[1..] + ys;
      CountAppend(xs[1..], ys, x);
    }
  }

  /** Python's `xs[-n:]` for a positive `n`. `Last(xs, 0)` is empty, unlike
      Python's `xs[-0:]`, which is the whole list. */
  function Last<T>(xs: seq<T>, n: nat): (r: seq<T>)
    ensures |r| == if |xs| <= n then |xs| else n
  {
    if |xs| <= n then xs else xs[|xs| - n..]
  }

  /** `xs[-n:]` is the tail of `xs`: its elements are the last ones, in order. */
  lemma LastIsSuffix<T>(xs: seq<T>, n: nat)
    ensures var r := Last(xs, n);
      forall i :: 0 <= i < |r| ==> r[i] == xs[|xs| - |r| + i]
  {
  }
}

=== FILE: throttle.dfy ===
/** The decisions `Bot.msg` takes before it writes (irc.py): how long to pause,
    whether loop detection replaces or drops the text, and how the history of
    sent messages (`self.stack`) changes. Time is a parameter: `now` is the
    clock when `msg` is entered, and the clock after the pause is `now + slept`. */
module Throttle {
  import opened Strings

  /** One element of `self.stack`: when a text was sent, and the text. */
  datatype Entry = Entry(time: real, text: string)

  const Capacity := 10          // self.stack[-10:]
  const Window := 8             // self.stack[-8:]
  const RepeatLimit := 5        // messages.count(text) >= 5
  const PlaceholderLimit := 3   // messages.count('...') >= 3
  const Placeholder := "..."
  const QuietPeriod: real := 3.0
  const MinGap: real := 0.8

  /** `float(max(0, len(text) - 50)) / 70`: a second for every 70 characters past 50. */
  function Penalty(text: string): (p: real)
    ensures p >= 0.0
    ensures |text| <= 50 ==> p == 0.0
    ensures |text| > 50 ==> p * 70.0 == (|text| - 50) as real
  {
    if |text| > 50 then (|text| - 50) as real / 70.0 else 0.0
  }

  /** The spacing `msg` enforces after a recent message. */
  function Wait(text: string): (w: real)
    ensures w >= MinGap
  {
    MinGap + Penalty(text)
  }

  /** How long `msg` sleeps: nothing after an empty history or three quiet
      seconds; otherwise just long enough that `Wait(text)` has passed since
      the last message. */
  function Delay(stack: seq<Entry>, text: string, now: real): (d: real)
    ensures d >= 0.0
    ensures stack == [] ==> d == 0.0
    ensures stack != [] && now - stack[|stack| - 1].time >= QuietPeriod ==> d == 0.0
    ensures stack != [] && now - stack[|stack| - 1].time < QuietPeriod ==>
      now + d - stack[|stack| - 1].time >= Wait(text)
      && (d > 0.0 ==> now + d - stack[|stack| - 1].time == Wait(text))
  {
    if stack == [] then 0.0
    else
      var elapsed := now - stack[|stack| - 1].time;
      if elapsed < QuietPeriod && elapsed < Wait(text) then Wait(text) - elapsed else 0.0
  }

  /** The texts of a history, oldest first. */
  function Texts(stack: seq<Entry>): (ts: seq<string>)
    ensures |ts| == |stack|
    ensures forall i :: 0 <= i < |ts| ==> ts[i] == stack[i].text
  {
    seq(|stack|, i requires 0 <= i < |stack| => stack[i].text)
  }

  /** `[m[1] for m in self.stack[-8:]]` */
  function Recent(stack: seq<Entry>): seq<string> {
    Texts(Last(stack, Window))
  }

  /** The recent texts are those of the last eight entries (all of them when
      there are fewer), oldest first. */
  lemma RecentIsTail(stack: seq<Entry>)
    ensures var ts := Recent(stack);
      |ts| == (if |stack| <= Window then |stack| else Window)
      && forall i :: 0 <= i < |ts| ==> ts[i] == stack[|stack| - |ts| + i].text
  {
    LastIsSuffix(stack, Window);
  }

  /** What loop detection lets through. */
  datatype Verdict = Drop | Pass(text: string)

  /** A text seen five times among the last eight is replaced by "...", and
      dropped instead when "..." itself is there three times. */
  function Detect(stack: seq<Entry>, text: string): (v: Verdict)
    ensures v.Drop? <==>
      Count(Recent(stack), text) >= RepeatLimit && Count(Recent(stack), Placeholder) >= PlaceholderLimit
    ensures v.Pass? && Count(Recent(stack), text) < RepeatLimit ==> v.text == text
    ensures v.Pass? && Count(Recent(stack), text) >= RepeatLimit ==> v.text == Placeholder
  {
    var recent := Recent(stack);
    if Count(recent, text) >= RepeatLimit then
      if Count(recent, Placeholder) >= PlaceholderLimit then Drop else Pass(Placeholder)
    else Pass(text)
  }

  /** `self.stack.append(e); self.stack = self.stack[-10:]` */
  function Record(stack: seq<Entry>, e: Entry): (s: seq<Entry>)
    ensures 1 <= |s| <= Capacity
    ensures s[|s| - 1] == e
    ensures |stack| < Capacity ==> s == stack + [e]
    ensures |stack| >= Capacity ==> s == stack[|stack| - Capacity + 1..] + [e]
  {
    Last(stack + [e], Capacity)
  }

  /** The effect of one `msg` call on the history: the pause it took, the text
      it wrote (None when loop detection dropped it), and the new history. */
  datatype Outcome = Outcome(slept: real, sent: Option<string>, stack: seq<Entry>)

  function Send(stack: seq<Entry>, text: string, now: real): (o: Outcome)
    ensures o.slept == Delay(stack, text, now)
    ensures o.sent.None? <==> Detect(stack, text).Drop?
    ensures o.sent.None? ==> o.stack == stack
    ensures o.sent.Some? ==>
      (o.sent.value == Detect(stack, text).text
       && o.stack == Record(stack, Entry(now + o.slept, o.sent.value)))
  {
    var slept := Delay(stack, text, now);
    match Detect(stack, text)
    case Drop => Outcome(slept, None, stack)
    case Pass(t) => Outcome(slept, Some(t), Record(stack, Entry(now + slept, t)))
  }

  // ---------------------------------------------------------------------------
  // What the history promises

  /** Consecutive entries are at least 0.8 seconds apart. */
  predicate Spaced(stack: seq<Entry>) {
    forall i :: 0 < i < |stack| ==> ApartFromPrevious(stack, i)
  }

  predicate ApartFromPrevious(stack: seq<Entry>, i: nat)
    requires 0 < i < |stack|
  {
    stack[i].time - stack[i - 1].time >= MinGap
  }

  /** No text appears more than five times among the last eight. */
  ghost predicate NotFlooding(stack: seq<Entry>) {
    forall x :: Count(Recent(stack), x) <= RepeatLimit
  }

  ghost predicate History(stack: seq<Entry>) {
    |stack| <= Capacity && Spaced(stack) && NotFlooding(stack)
  }

  /** A sent message comes at least `Wait(text)` after the previous one, or at
      least three seconds after it, whichever `msg` saw first. */
  lemma GapAfterSend(stack: seq<Entry>, text: string, now: real)
    requires stack != [] && Send(stack, text, now).sent.Some?
    ensures var o := Send(stack, text, now);
      var gap := o.stack[|o.stack| - 1].time - stack[|stack| - 1].time;
      gap >= (if now - stack[|stack| - 1].time < QuietPeriod then Wait(text) else QuietPeriod)
      && gap >= MinGap
  {
  }

  lemma LastAppend<T>(xs: seq<T>, y: T, n: nat)
    requires n > 0
    ensures Last(xs + [y], n) == Last(xs, n - 1) + [y]
  {
  }

  lemma LastOfLast<T>(xs: seq<T>, m: nat, n: nat)
    requires m <= n
    ensures Last(Last(xs, n), m) == Last(xs, m)
  {
  }

  lemma TextsOfLast(stack: seq<Entry>, n: nat)
    ensures Texts(Last(stack, n)) == Last(Texts(stack), n)
  {
  }

  lemma CountOfShorterLast<T>(xs: seq<T>, m: nat, n: nat, x: T)
    requires m <= n
    ensures Count(Last(xs, m), x) <= Count(Last(xs, n), x)
  {
    var long := Last(xs, n);
    var short := Last(xs, m);
    var k := |long| - |short|;
    assert long == long[..k] + short;
    CountAppend(long[..k], short, x);
  }

  /** The texts among the last eight after recording `e`. */
  lemma RecentAfterRecord(stack: seq<Entry>, e: Entry)
    ensures Recent(Record(stack, e)) == Last(Texts(stack), Window - 1) + [e.text]
  {
    var ts := Texts(stack);
    LastOfLast(stack + [e], Window, Capacity);
    TextsOfLast(stack + [e], Window);
    assert Texts(stack + [e]) == ts + [e.text];
    LastAppend(ts, e.text, Window);
  }

  /** Recording `e` adds at most one to the count of its own text among the
      last eight and never adds to any other text's count. */
  lemma CountAfterRecord(stack: seq<Entry>, e: Entry, x: string)
    ensures Count(Recent(Record(stack, e)), x)
            <= Count(Recent(stack), x) + (if x == e.text then 1 else 0)
  {
    var ts := Texts(stack);
    RecentAfterRecord(stack, e);
    CountAppend(Last(ts, Window - 1), [e.text], x);
    CountOfShorterLast(ts, Window - 1, Window, x);
    TextsOfLast(stack, Window);
  }

  /** `msg` keeps its history paced: 0.8 seconds at least between entries. */
  lemma SendKeepsSpacing(stack: seq<Entry>, text: string, now: real)
    requires Spaced(stack)
    ensures Spaced(Send(stack, text, now).stack)
  {
    var d := Detect(stack, text);
    if d.Pass? {
      if stack != [] {
        GapAfterSend(stack, text, now);
      }
      RecordKeepsSpacing(stack, Entry(now + Delay(stack, text, now), d.text));
    }
  }

  lemma RecordKeepsSpacing(stack: seq<Entry>, e: Entry)
    requires Spaced(stack)
    requires stack != [] ==> e.time - stack[|stack| - 1].time >= MinGap
    ensures Spaced(Record(stack, e))
  {
    var all := stack + [e];
    var s := Record(stack, e);
    var off := |all| - |s|;
    assert s == all[off..];
    forall i | 0 < i < |s| ensures ApartFromPrevious(s, i) {
      assert s[i] == all[off + i] && s[i - 1] == all[off + i - 1];
      if off + i < |stack| {
        assert all[off + i] == stack[off + i] && all[off + i - 1] == stack[off + i - 1];
        assert ApartFromPrevious(stack, off + i);
      } else {
        assert all[off + i - 1] == stack[|stack| - 1];
      }
    }
  }

  /** `msg` keeps its history free of floods: no text more than five times
      among the last eight. */
  lemma SendKeepsNotFlooding(stack: seq<Entry>, text: string, now: real)
    requires NotFlooding(stack)
    ensures NotFlooding(Send(stack, text, now).stack)
  {
    var d := Detect(stack, text);
    if d.Pass? {
      RecordKeepsNotFlooding(stack, text, Entry(now + Delay(stack, text, now), d.text));
    }
  }

  lemma RecordKeepsNotFlooding(stack: seq<Entry>, text: string, e: Entry)
    requires NotFlooding(stack)
    requires Detect(stack, text) == Pass(e.text)
    ensures NotFlooding(Record(stack, e))
  {
    forall x ensures Count(Recent(Record(stack, e)), x) <= RepeatLimit {
      CountAfterRecordBounded(stack, text, e, x);
    }
  }

  lemma CountAfterRecordBounded(stack: seq<Entry>, text: string, e: Entry, x: string)
    requires Count(Recent(stack), x) <= RepeatLimit
    requires Detect(stack, text) == Pass(e.text)
    ensures Count(Recent(Record(stack, e)), x) <= RepeatLimit
  {
    CountAfterRecord(stack, e, x);
  }

  /** `msg` keeps the history short, paced and free of floods. */
  lemma SendKeepsHistory(stack: seq<Entry>, text: string, now: real)
    requires History(stack)
    ensures History(Send(stack, text, now).stack)
  {
    SendKeepsSpacing(stack, text, now);
    SendKeepsNotFlooding(stack, text, now);
  }

  /** Once a text has been replaced five times and "..." stands three times
      among the last eight, every further send of that text is dropped and
      the history stays as it is. */
  lemma DroppedStaysDropped(stack: seq<Entry>, text: string, now: real, later: real)
    requires Send(stack, text, now).sent.None?
    ensures Send(Send(stack, text, now).stack, text, later).sent.None?
  {
  }

  /** The loop detector's example: five copies of a text and three "..."
      among the last eight drop a sixth copy. */
  lemma FiveRepeatsAndThreePlaceholdersDrop(t0: real, x: string)
    requires x != Placeholder
    ensures var stack := [Entry(t0, x), Entry(t0 + 1.0, x), Entry(t0 + 2.0, x), Entry(t0 + 3.0, x),
                          Entry(t0 + 4.0, x), Entry(t0 + 5.0, Placeholder), Entry(t0 + 6.0, Placeholder),
                          Entry(t0 + 7.0, Placeholder)];
      Send(stack, x, t0 + 8.0).sent.None? && Send(stack, x, t0 + 8.0).stack == stack
  {
    var stack := [Entry(t0, x), Entry(t0 + 1.0, x), Entry(t0 + 2.0, x), Entry(t0 + 3.0, x),
                  Entry(t0 + 4.0, x), Entry(t0 + 5.0, Placeholder), Entry(t0 + 6.0, Placeholder),
                  Entry(t0 + 7.0, Placeholder)];
    assert Recent(stack) == [x, x, x, x, x, Placeholder, Placeholder, Placeholder];
    CountsOfExample(x, Placeholder);
    assert Detect(stack, x) == Drop;
  }

  lemma CountsOfExample<T>(x: T, d: T)
    requires x != d
    ensures Count([x, x, x, x, x, d, d, d], x) == 5 && Count([x, x, x, x, x, d, d, d], d) == 3
  {
    var s1 := [d];
    var s2 := [d] + s1;
    var s3 := [d] + s2;
    CountCons(d, [], x); CountCons(d, [], d);
    CountCons(d, s1, x); CountCons(d, s1, d);
    CountCons(d, s2, x); CountCons(d, s2, d);
    var a := [x] + s3;
    var b := [x] + a;
    var c := [x] + b;
    var e := [x] + c;
    var f := [x] + e;
    CountCons(x, s3, x); CountCons(x, s3, d);
    CountCons(x, a, x); CountCons(x, a, d);
    CountCons(x, b, x); CountCons(x, b, d);
    CountCons(x, c, x); CountCons(x, c, d);
    CountCons(x, e, x); CountCons(x, e, d);
    assert f == [x, x, x, x, x, d, d, d];
  }

  lemma CountCons<T>(y: T, ys: seq<T>, x: T)
    ensures Count([y] + ys, x) == (if y == x then 1 else 0) + Count(ys, x)
  {
    assert ([y] + ys)[1..] == ys;
  }
}

=== FILE: utf8.dfy ===
/** UTF-8 as Python's `bytes(s, 'utf-8', 'ignore')` and `str(b, 'utf-8', 'ignore')` use it.
    A Dafny `char` is a Unicode scalar value, so encoding never has anything to ignore;
    decoding drops every byte at which no well-formed sequence starts. */
module Utf8 {
  import opened Strings

  predicate IsContinuation(b: byte) {
    0x80 <= b < 0xC0
  }

  /** The well-formed UTF-8 sequence for one scalar value. */
  function EncodeChar(c: char): (bs: seq<byte>)
    ensures 1 <= |bs| <= 4
    ensures |bs| == 1 <==> c as int < 0x80
    ensures bs[0] < 0x80 || 0xC2 <= bs[0] < 0xF5
    ensures forall i :: 1 <= i < |bs| ==> IsContinuation(bs[i])
  {
    var n := c as int;
    if n < 0x80 then [n as byte]
    else if n < 0x800 then [(0xC0 + n / 64) as byte, (0x80 + n % 64) as byte]
    else if n < 0x10000 then
      [(0xE0 + n / 4096) as byte, (0x80 + (n / 64) % 64) as byte, (0x80 + n % 64) as byte]
    else
      [(0xF0 + n / 262144) as byte, (0x80 + (n / 4096) % 64) as byte,
       (0x80 + (n / 64) % 64) as byte, (0x80 + n % 64) as byte]
  }

  function Encode(s: string): (bs: seq<byte>)
  {
    if s == [] then [] else EncodeChar(s[0]) + Encode(s[1..])
  }

  /** Every character takes between one and four bytes. */
  lemma {:induction false} EncodeLength(s: string)
    ensures |s| <= |Encode(s)| <= 4 * |s|
  {
    if s != [] {
      EncodeLength(s[1..]);
    }
  }

  predicate IsAscii(s: string) {
    forall i :: 0 <= i < |s| ==> s[i] as int < 0x80
  }

  lemma {:induction false} EncodeAppend(a: string, b: string)
    ensures Encode(a + b) == Encode(a) + Encode(b)
  {
    if a == [] {
      assert a + b == b;
    } else {
      assert (a + b)[1..] == a[1..] + b;
      EncodeAppend(a[1..], b);
    }
  }

  /** ASCII text encodes to one byte per character, each its code. */
  lemma {:induction false} EncodeAscii(s: string)
    requires IsAscii(s)
    ensures |Encode(s)| == |s|
    ensures forall i :: 0 <= i < |s| ==> Encode(s)[i] as int == s[i] as int
  {
    if s != [] {
      EncodeAscii(s[1..]);
    }
  }

  // ---------------------------------------------------------------------------
  // Decoding

  function Cont(b: byte): int {
    b as int - 0x80
  }

  /** The scalar value at the start of `bs` and its length in bytes, when a
      well-formed sequence starts there (no overlong form, no surrogate, nothing
      above U+10FFFF). */
  function DecodeFirst(bs: seq<byte>): (r: Option<(char, nat)>)
    ensures r.Some? ==> 1 <= r.value.1 <= |bs|
  {
    if bs == [] then None
    else
      var b0 := bs[0] as int;
      if b0 < 0x80 then Some((b0 as char, 1))
      else if 0xC0 <= b0 < 0xE0 && |bs| >= 2 && IsContinuation(bs[1]) then
        var n := (b0 - 0xC0) * 64 + Cont(bs[1]);
        if n < 0x80 then None else Some((n as char, 2))
      else if 0xE0 <= b0 < 0xF0 && |bs| >= 3 && IsContinuation(bs[1]) && IsContinuation(bs[2]) then
        var n := ((b0 - 0xE0) * 64 + Cont(bs[1])) * 64 + Cont(bs[2]);
        if n < 0x800 || 0xD800 <= n < 0xE000 then None else Some((n as char, 3))
      else if 0xF0 <= b0 < 0xF8 && |bs| >= 4
              && IsContinuation(bs[1]) && IsContinuation(bs[2]) && IsContinuation(bs[3]) then
        var n := (((b0 - 0xF0) * 64 + Cont(bs[1])) * 64 + Cont(bs[2])) * 64 + Cont(bs[3]);
        if n < 0x10000 || n > 0x10FFFF then None else Some((n as char, 4))
      else None
  }

  /** `str(bs, 'utf-8', 'ignore')`: every byte at which no well-formed sequence
      starts is dropped. (Dropping the bytes of an ill-formed sequence one at a
      time drops the same bytes as dropping its maximal subpart at once, since
      the rest of such a subpart are continuation bytes.) */
  function DecodeIgnore(bs: seq<byte>): string
    decreases |bs|
  {
    if bs == [] then []
    else match DecodeFirst(bs)
      case Some((c, n)) => [c] + DecodeIgnore(bs[n..])
      case None => DecodeIgnore(bs[1..])
  }

  /** Decoding yields at most one character per byte. */
  lemma {:induction false} DecodeIgnoreLength(bs: seq<byte>)
    ensures |DecodeIgnore(bs)| <= |bs|
    decreases |bs|
  {
    if bs != [] {
      match DecodeFirst(bs)
      case Some((c, n)) => DecodeIgnoreLength(bs[n..]);
      case None => DecodeIgnoreLength(bs[1..]);
    }
  }

  lemma DivMod64(q: int, r: int)
    requires 0 <= r < 64
    ensures (q * 64 + r) / 64 == q && (q * 64 + r) % 64 == r
  {
  }

  lemma DivMod4096(q: int, r: int)
    requires 0 <= r < 4096
    ensures (q * 4096 + r) / 4096 == q
  {
  }

  lemma DivMod262144(q: int, r: int)
    requires 0 <= r < 262144
    ensures (q * 262144 + r) / 262144 == q
  {
  }

  /** Whatever the decoder accepts is exactly the well-formed encoding of the
      character it returns: an overlong form, a surrogate or a value above
      U+10FFFF is never taken for a character, so 'ignore' drops it. */
  lemma DecodeFirstIsEncoding(bs: seq<byte>)
    requires DecodeFirst(bs).Some?
    ensures var (c, n) := DecodeFirst(bs).value; bs[..n] == EncodeChar(c)
  {
    var b0 := bs[0];
    if b0 < 0x80 {
      assert bs[..1] == [bs[0]];
    } else if b0 < 0xE0 {
      TwoIsEncoding(bs);
    } else if b0 < 0xF0 {
      ThreeIsEncoding(bs);
    } else {
      FourIsEncoding(bs);
    }
  }

  lemma TwoIsEncoding(bs: seq<byte>)
    requires DecodeFirst(bs).Some? && 0x80 <= bs[0] < 0xE0
    ensures var (c, n) := DecodeFirst(bs).value; n == 2 && bs[..2] == EncodeChar(c)
  {
    EncodingOfTwo(bs[0] as int - 0xC0, Cont(bs[1]));
    assert bs[..2] == [bs[0], bs[1]];
  }

  lemma ThreeIsEncoding(bs: seq<byte>)
    requires DecodeFirst(bs).Some? && 0xE0 <= bs[0] < 0xF0
    ensures var (c, n) := DecodeFirst(bs).value; n == 3 && bs[..3] == EncodeChar(c)
  {
    EncodingOfThree(bs[0] as int - 0xE0, Cont(bs[1]), Cont(bs[2]));
    assert bs[..3] == [bs[0], bs[1], bs[2]];
  }

  lemma FourIsEncoding(bs: seq<byte>)
    requires DecodeFirst(bs).Some? && 0xF0 <= bs[0]
    ensures var (c, n) := DecodeFirst(bs).value; n == 4 && bs[..4] == EncodeChar(c)
  {
    EncodingOfFour(bs[0] as int - 0xF0, Cont(bs[1]), Cont(bs[2]), Cont(bs[3]));
    assert bs[..4] == [bs[0], bs[1], bs[2], bs[3]];
  }

  lemma EncodingOfTwo(a: int, c1: int)
    requires 0 <= a < 32 && 0 <= c1 < 64 && a * 64 + c1 >= 0x80
    ensures EncodeChar((a * 64 + c1) as char) == [(0xC0 + a) as byte, (0x80 + c1) as byte]
  {
    DivMod64(a, c1);
  }

  lemma EncodingOfThree(a: int, c1: int, c2: int)
    requires 0 <= a < 16 && 0 <= c1 < 64 && 0 <= c2 < 64
    requires var n := (a * 64 + c1) * 64 + c2; n >= 0x800 && !(0xD800 <= n < 0xE000)
    ensures EncodeChar(((a * 64 + c1) * 64 + c2) as char)
            == [(0xE0 + a) as byte, (0x80 + c1) as byte, (0x80 + c2) as byte]
  {
    var n := (a * 64 + c1) * 64 + c2;
    DivMod64(a * 64 + c1, c2);
    DivMod64(a, c1);
    assert n == a * 4096 + (c1 * 64 + c2);
    DivMod4096(a, c1 * 64 + c2);
  }

  lemma EncodingOfFour(a: int, c1: int, c2: int, c3: int)
    requires 0 <= a < 8 && 0 <= c1 < 64 && 0 <= c2 < 64 && 0 <= c3 < 64
    requires var n := ((a * 64 + c1) * 64 + c2) * 64 + c3; 0x10000 <= n <= 0x10FFFF
    ensures EncodeChar((((a * 64 + c1) * 64 + c2) * 64 + c3) as char)
            == [(0xF0 + a) as byte, (0x80 + c1) as byte, (0x80 + c2) as byte, (0x80 + c3) as byte]
  {
    var hi := (a * 64 + c1) * 64 + c2;
    var n := hi * 64 + c3;
    DivMod64(hi, c3);
    DivMod64(a * 64 + c1, c2);
    DivMod64(a, c1);
    assert n == (a * 64 + c1) * 4096 + (c2 * 64 + c3);
    DivMod4096(a * 64 + c1, c2 * 64 + c3);
    assert n == a * 262144 + ((c1 * 64 + c2) * 64 + c3);
    DivMod262144(a, (c1 * 64 + c2) * 64 + c3);
  }

  /** Decoding the front of an encoded character gives that character back. */
  lemma DecodeFirstOfEncodeChar(c: char, rest: seq<byte>)
    ensures DecodeFirst(EncodeChar(c) + rest) == Some((c, |EncodeChar(c)|))
  {
    var n := c as int;
    if n < 0x80 {
    } else if n < 0x800 {
      DecodeFirstOfTwo(c, rest);
    } else if n < 0x10000 {
      DecodeFirstOfThree(c, rest);
    } else {
      DecodeFirstOfFour(c, rest);
    }
  }

  lemma DecodeFirstOfTwo(c: char, rest: seq<byte>)
    requires 0x80 <= c as int < 0x800
    ensures DecodeFirst(EncodeChar(c) + rest) == Some((c, 2))
  {
    var n := c as int;
    var bs := EncodeChar(c) + rest;
    DivMod64(n / 64, n % 64);
    assert bs[0] as int == 0xC0 + n / 64 && bs[1] as int == 0x80 + n % 64;
    assert (bs[0] as int - 0xC0) * 64 + Cont(bs[1]) == n;
  }

  lemma DecodeFirstOfThree(c: char, rest: seq<byte>)
    requires 0x800 <= c as int < 0x10000
    ensures DecodeFirst(EncodeChar(c) + rest) == Some((c, 3))
  {
    var n := c as int;
    var bs := EncodeChar(c) + rest;
    var hi := n / 64;
    assert n == hi * 64 + n % 64;
    assert hi == (n / 4096) * 64 + hi % 64;
    assert bs[0] as int - 0xE0 == n / 4096;
    assert Cont(bs[1]) == hi % 64 && Cont(bs[2]) == n % 64;
    assert ((bs[0] as int - 0xE0) * 64 + Cont(bs[1])) * 64 + Cont(bs[2]) == n;
  }

  lemma DecodeFirstOfFour(c: char, rest: seq<byte>)
    requires 0x10000 <= c as int
    ensures DecodeFirst(EncodeChar(c) + rest) == Some((c, 4))
  {
    var n := c as int;
    var bs := EncodeChar(c) + rest;
    var hi := n / 64;
    var top := hi / 64;
    assert n == hi * 64 + n % 64;
    assert hi == top * 64 + hi % 64;
    assert top == n / 4096;
    assert top == (n / 262144) * 64 + top % 64;
    assert bs[0] as int - 0xF0 == n / 262144;
    assert Cont(bs[1]) == top % 64 && Cont(bs[2]) == hi % 64 && Cont(bs[3]) == n % 64;
    assert (((bs[0] as int - 0xF0) * 64 + Cont(bs[1])) * 64 + Cont(bs[2])) * 64 + Cont(bs[3]) == n;
  }

  /** Decoding with 'ignore' undoes encoding: nothing is lost on a round trip. */
  lemma {:induction false} DecodeIgnoreOfEncode(s: string)
    ensures DecodeIgnore(Encode(s)) == s
  {
    if s != [] {
      var e := EncodeChar(s[0]);
      DecodeFirstOfEncodeChar(s[0], Encode(s[1..]));
      assert (e + Encode(s[1..]))[|e|..] == Encode(s[1..]);
      DecodeIgnoreOfEncode(s[1..]);
    }
  }

  /** Bytes of an ill-formed sequence never reach the decoded text: decoding
      skips a lone continuation byte. */
  lemma DecodeIgnoreSkipsContinuation(b: byte, rest: seq<byte>)
    requires IsContinuation(b)
    ensures DecodeIgnore([b] + rest) == DecodeIgnore(rest)
  {
    assert ([b] + rest)[1..] == rest;
  }
}

=== FILE: web.dfy ===
/** HTML entity decoding (web.py): `decode` replaces every `&name;` with what
    `entity` makes of the name. The html5 name table is a parameter; its keys
    carry the trailing `;` as in Python's `html.entities.html5`. A replacement
    that raises makes the whole decode raise, shown here as `None`. */
module Web {
  import opened Strings

  // ---------------------------------------------------------------------------
  // str.lower

  function LowerChar(c: char): (d: char)
    ensures 'A' <= c <= 'Z' ==> d as int == c as int + 32
    ensures !('A' <= c <= 'Z') ==> d == c
  {
    if 'A' <= c <= 'Z' then (c as int + 32) as char else c
  }

  /** `s.lower()` on the ASCII letters. */
  function Lower(s: string): (r: string)
    ensures |r| == |s|
    ensures forall i :: 0 <= i < |s| ==> r[i] == LowerChar(s[i])
  {
    seq(|s|, i requires 0 <= i < |s| => LowerChar(s[i]))
  }

  /** Lowering is idempotent: a lowered name lowers to itself. */
  lemma LowerIdempotent(s: string)
    ensures Lower(Lower(s)) == Lower(s)
  {
    var l := Lower(s);
    forall i | 0 <= i < |s| ensures Lower(l)[i] == l[i] {
      assert !('A' <= l[i] <= 'Z');
    }
  }

  // ---------------------------------------------------------------------------
  // int(s, base)

  datatype Radix = Decimal | Hex

  function Base(radix: Radix): nat {
    match radix
    case Decimal => 10
    case Hex => 16
  }

  /** The value of one digit, both letter cases for base 16. */
  function DigitValue(c: char, radix: Radix): (d: Option<nat>)
    ensures d.Some? ==> d.value < Base(radix)
    ensures '0' <= c <= '9' ==> d == Some(c as int - '0' as int)
    ensures c == '_' || c == '+' || c == '-' || c == 'x' || c == 'X' ==> d.None?
  {
    if '0' <= c <= '9' then Some(c as int - '0' as int)
    else if radix == Hex && 'a' <= c <= 'f' then Some(c as int - 'a' as int + 10)
    else if radix == Hex && 'A' <= c <= 'F' then Some(c as int - 'A' as int + 10)
    else None
  }

  predicate IsDigit(c: char, radix: Radix) {
    DigitValue(c, radix).Some?
  }

  /** Position `i` holds a digit, or an underscore between two digit positions
      (the one before it is itself checked to be a digit or the start). */
  predicate DigitOrSeparator(u: string, i: nat, radix: Radix)
    requires i < |u|
  {
    IsDigit(u[i], radix) || (u[i] == '_' && 0 < i && i + 1 < |u| && IsDigit(u[i + 1], radix))
  }

  /** The digit part `int` accepts: digits, with single underscores between them. */
  predicate ValidDigits(u: string, radix: Radix) {
    u != [] && IsDigit(u[0], radix) && forall i :: 0 <= i < |u| ==> DigitOrSeparator(u, i, radix)
  }

  /** The number the digits spell, underscores skipped. */
  function DigitsValue(u: string, radix: Radix): (n: nat)
    decreases |u|
  {
    if u == [] then 0
    else
      var init := DigitsValue(u[..|u| - 1], radix);
      match DigitValue(u[|u| - 1], radix)
      case Some(d) => init * Base(radix) + d
      case None => init
  }

  /** After an optional sign, base 16 allows a `0x` or `0X` prefix and one
      underscore right after it. */
  function Unprefixed(t: string, radix: Radix): (u: string)
    ensures |u| <= |t|
  {
    if radix == Hex && |t| >= 2 && t[0] == '0' && (t[1] == 'x' || t[1] == 'X') then
      var w := t[2..];
      if w != [] && w[0] == '_' then w[1..] else w
    else t
  }

  /** What is left after the prefix is the tail of the text. */
  lemma UnprefixedIsSuffix(t: string, radix: Radix)
    ensures var u := Unprefixed(t, radix);
      forall i :: 0 <= i < |u| ==> u[i] == t[|t| - |u| + i]
  {
  }

  /** The unsigned part of `int(s, base)`: an optional prefix, then digits. */
  function Magnitude(t: string, radix: Radix): (r: Option<nat>)
  {
    var u := Unprefixed(t, radix);
    if ValidDigits(u, radix) then
      Some(DigitsValue(u, radix))
    else None
  }

  /** An optional leading sign: whether it is a minus, and the rest. */
  function SplitSign(s: string): (r: (bool, string))
    ensures r.0 <==> s != [] && s[0] == '-'
    ensures r.1 == s || (s != [] && (s[0] == '+' || s[0] == '-') && r.1 == s[1..])
  {
    if s != [] && (s[0] == '+' || s[0] == '-') then (s[0] == '-', s[1..]) else (false, s)
  }

  /** `int(s, base)` for base 10 and 16 over ASCII digits; None where it
      raises ValueError. */
  function ParseInt(s: string, radix: Radix): (r: Option<int>)
    ensures r.Some? && (s == [] || s[0] != '-') ==> r.value >= 0
  {
    var sign := SplitSign(s);
    match Magnitude(sign.1, radix)
    case Some(m) => Some(if sign.0 then -(m as int) else m as int)
    case None => None
  }

  /** A text without a single digit is not a number: the empty text, a lone
      sign or a lone underscore all raise. */
  lemma ParseIntWithoutDigits(s: string, radix: Radix)
    requires forall i :: 0 <= i < |s| ==> !IsDigit(s[i], radix)
    ensures ParseInt(s, radix).None?
  {
    var t := SplitSign(s).1;
    if t != s {
      forall i | 0 <= i < |t| ensures !IsDigit(t[i], radix) {
        assert t[i] == s[i + 1];
      }
    }
    var u := Unprefixed(t, radix);
    UnprefixedIsSuffix(t, radix);
    if u != [] {
      assert u[0] == t[|t| - |u|];
    }
    assert !ValidDigits(u, radix);
    assert Magnitude(t, radix).None?;
  }

  /** A character that is neither a digit nor one of the sign, prefix and
      separator characters makes `int` raise, wherever it stands. */
  lemma ParseIntOfStrayChar(s: string, radix: Radix, i: nat)
    requires i < |s| && !IsDigit(s[i], radix)
    requires s[i] != '_' && s[i] != '+' && s[i] != '-' && s[i] != 'x' && s[i] != 'X'
    ensures ParseInt(s, radix) == None
  {
    var t := SplitSign(s).1;
    var j := if t == s then i else i - 1;
    assert j < |t| && t[j] == s[i];
    MagnitudeOfStrayChar(t, radix, j);
  }

  lemma MagnitudeOfStrayChar(t: string, radix: Radix, j: nat)
    requires j < |t| && !IsDigit(t[j], radix)
    requires t[j] != '_' && t[j] != 'x' && t[j] != 'X'
    ensures Magnitude(t, radix) == None
  {
    var u := Unprefixed(t, radix);
    UnprefixedIsSuffix(t, radix);
    var k := j - (|t| - |u|);
    assert 0 <= k < |u| && u[k] == t[j];
    assert !DigitOrSeparator(u, k, radix);
  }

  /** An underscore first, last, or next to another underscore in the digit
      part makes it fail. */
  lemma MagnitudeOfMisplacedUnderscore(t: string, radix: Radix, k: nat)
    requires var u := Unprefixed(t, radix);
      k < |u| && u[k] == '_' && (k == 0 || k + 1 == |u| || u[k + 1] == '_')
    ensures Magnitude(t, radix) == None
  {
    var u := Unprefixed(t, radix);
    assert !DigitOrSeparator(u, k, radix);
  }

  /** The lower-case digit for `d`. */
  function DigitChar(d: nat, radix: Radix): (c: char)
    requires d < Base(radix)
    ensures DigitValue(c, radix) == Some(d)
    ensures c != 'x' && c != '_' && LowerChar(c) == c
  {
    if d < 10 then ('0' as int + d) as char else ('a' as int + d - 10) as char
  }

  /** The digits of `n` in the given base, most significant first. */
  function Show(n: nat, radix: Radix): (s: string)
    ensures s != [] && forall i :: 0 <= i < |s| ==> IsDigit(s[i], radix) && LowerChar(s[i]) == s[i]
    decreases n
  {
    if n < Base(radix) then [DigitChar(n, radix)]
    else Show(n / Base(radix), radix) + [DigitChar(n % Base(radix), radix)]
  }

  /** Digits without underscores always spell the number they were shown from. */
  lemma {:induction false} DigitsValueOfShow(n: nat, radix: Radix)
    ensures DigitsValue(Show(n, radix), radix) == n
    decreases n
  {
    var s := Show(n, radix);
    if n >= Base(radix) {
      DigitsValueOfShow(n / Base(radix), radix);
      assert s[..|s| - 1] == Show(n / Base(radix), radix);
    } else {
      assert s[..|s| - 1] == [];
    }
  }

  /** What `Show` writes has no sign, no prefix and no underscore. */
  lemma MagnitudeOfShow(n: nat, radix: Radix)
    ensures Magnitude(Show(n, radix), radix) == Some(n)
  {
    var s := Show(n, radix);
    assert IsDigit(s[0], radix);
    if |s| >= 2 {
      assert IsDigit(s[1], radix);
    }
    assert Unprefixed(s, radix) == s;
    forall i | 0 <= i < |s| ensures DigitOrSeparator(s, i, radix) {
      assert IsDigit(s[i], radix);
    }
    DigitsValueOfShow(n, radix);
  }

  /** `int` in base 16 drops a `0x` or `0X` prefix, and one underscore
      after it. */
  lemma UnprefixedOfHexPrefix(prefix: string, d: string)
    requires prefix == "0x" || prefix == "0X" || prefix == "0x_" || prefix == "0X_"
    requires d != [] && d[0] != '_'
    ensures Unprefixed(prefix + d, Hex) == d
  {
    var t := prefix + d;
    assert t[0] == '0' && t[1] == prefix[1];
    assert t[2..] == prefix[2..] + d;
    if |prefix| == 3 {
      assert t[2..][1..] == d;
    } else {
      assert t[2..][0] == d[0];
    }
  }

  /** A hexadecimal number may carry a `0x` or `0X` prefix, and one underscore
      after it. */
  lemma MagnitudeOfHexPrefix(n: nat, prefix: string)
    requires prefix == "0x" || prefix == "0X" || prefix == "0x_" || prefix == "0X_"
    ensures Magnitude(prefix + Show(n, Hex), Hex) == Some(n)
  {
    var d := Show(n, Hex);
    assert IsDigit(d[0], Hex);
    UnprefixedOfHexPrefix(prefix, d);
    assert Unprefixed(d, Hex) == d by {
      if |d| >= 2 {
        assert IsDigit(d[1], Hex);
      }
    }
    MagnitudeOfShow(n, Hex);
  }

  /** `int` reads back what `Show` writes, in either base. */
  lemma ParseIntOfShow(n: nat, radix: Radix)
    ensures ParseInt(Show(n, radix), radix) == Some(n)
  {
    var s := Show(n, radix);
    assert IsDigit(s[0], radix);
    assert SplitSign(s) == (false, s);
    MagnitudeOfShow(n, radix);
  }

  /** A leading minus sign negates whatever the rest spells. */
  lemma ParseIntOfMinus(t: string, radix: Radix)
    ensures ParseInt("-" + t, radix) ==
      match Magnitude(t, radix)
      case Some(m) => Some(-(m as int))
      case None => None
  {
    var s := "-" + t;
    assert s[0] == '-' && s[1..] == t;
    assert SplitSign(s) == (true, t);
  }

  /** A negative number reads back from its digits after a minus sign. */
  lemma ParseIntOfNegative(n: nat, radix: Radix)
    ensures ParseInt("-" + Show(n, radix), radix) == Some(-(n as int))
  {
    MagnitudeOfShow(n, radix);
    ParseIntOfMinus(Show(n, radix), radix);
  }

  // ---------------------------------------------------------------------------
  // chr

  /** `chr(n)`: a one-character string, or None where Python raises
      ValueError (outside 0..0x10FFFF) or would build a lone surrogate. */
  function Chr(n: int): (r: Option<string>)
    ensures r.Some? <==> 0 <= n < 0xD800 || 0xE000 <= n <= 0x10FFFF
    ensures r.Some? ==> |r.value| == 1 && r.value[0] as int == n
  {
    if 0 <= n < 0xD800 || 0xE000 <= n <= 0x10FFFF then Some([n as char]) else None
  }

  // ---------------------------------------------------------------------------
  // entity

  /** `entity(match)` for the matched name: `#x` and `#` numeric references
      become the character with that code, a name in the table its value,
      and anything else the lowered name in brackets. */
  function Entity(table: map<string, string>, name: string): (r: Option<string>)
    ensures var v := Lower(name);
      (!StartsWith(v, "#") && v + ";" in table ==> r == Some(table[v + ";"]))
      && (!StartsWith(v, "#") && v + ";" !in table ==> r == Some("[" + v + "]"))
      && (StartsWith(v, "#") && r.Some? ==> |r.value| == 1)
  {
    var v := Lower(name);
    if StartsWith(v, "#x") then
      match ParseInt(v[2..], Hex)
      case Some(n) => Chr(n)
      case None => None
    else if StartsWith(v, "#") then
      match ParseInt(v[1..], Decimal)
      case Some(n) => Chr(n)
      case None => None
    else if v + ";" in table then Some(table[v + ";"])
    else Some("[" + v + "]")
  }

  /** Names are matched without regard to ASCII case. */
  lemma EntityIgnoresCase(table: map<string, string>, name: string)
    ensures Entity(table, name) == Entity(table, Lower(name))
  {
    LowerIdempotent(name);
  }

  /** `&#N;` with N in decimal names the character with code N. */
  lemma EntityOfDecimal(table: map<string, string>, c: char)
    ensures Entity(table, "#" + Show(c as int, Decimal)) == Some([c])
  {
    var digits := Show(c as int, Decimal);
    var name := "#" + digits;
    LowerOfLowered(name);
    assert !StartsWith(name, "#x") by {
      assert IsDigit(digits[0], Decimal);
      assert name[..2][1] == digits[0] != 'x';
    }
    assert name[1..] == digits;
    ParseIntOfShow(c as int, Decimal);
    assert Chr(c as int) == Some([c]);
  }

  /** `&#xN;` with N in hexadecimal names the character with code N. */
  lemma EntityOfHex(table: map<string, string>, c: char)
    ensures Entity(table, "#x" + Show(c as int, Hex)) == Some([c])
  {
    var digits := Show(c as int, Hex);
    var name := "#x" + digits;
    LowerOfLowered(name);
    assert name[..2] == "#x";
    assert name[2..] == digits;
    ParseIntOfShow(c as int, Hex);
    assert Chr(c as int) == Some([c]);
  }

  /** `&#...;` with a character in the number that `int` rejects raises. */
  lemma EntityOfStrayDecimal(table: map<string, string>, t: string, i: nat)
    requires i < |t| && !IsDigit(t[i], Decimal)
    requires t[i] != '_' && t[i] != '+' && t[i] != '-' && t[i] != 'x' && t[i] != 'X'
    requires t[0] != 'x' && t[0] != 'X'
    ensures Entity(table, "#" + t) == None
  {
    var v := Lower("#" + t);
    var d := Lower(t);
    assert v == "#" + d;
    assert !StartsWith(v, "#x") by {
      assert v[..2][1] == LowerChar(t[0]);
    }
    assert v[1..] == d;
    ParseIntOfStrayChar(d, Decimal, i);
  }

  /** `&#x...;` with a character in the number that `int(_, 16)` rejects raises. */
  lemma EntityOfStrayHex(table: map<string, string>, t: string, i: nat)
    requires i < |t| && !IsDigit(t[i], Hex)
    requires t[i] != '_' && t[i] != '+' && t[i] != '-' && t[i] != 'x' && t[i] != 'X'
    ensures Entity(table, "#x" + t) == None
  {
    var v := Lower("#x" + t);
    var d := Lower(t);
    assert v == "#x" + d;
    assert v[..2] == "#x";
    assert v[2..] == d;
    ParseIntOfStrayChar(d, Hex, i);
  }

  /** A name already in lower case is its own lowering. */
  lemma LowerOfLowered(s: string)
    requires forall i :: 0 <= i < |s| ==> LowerChar(s[i]) == s[i]
    ensures Lower(s) == s
  {
  }

  /** A numeric reference without digits raises. */
  lemma EntityWithoutDigits(table: map<string, string>)
    ensures Entity(table, "#") == None && Entity(table, "#x") == None
  {
    assert Lower("#") == "#";
    assert Lower("#x") == "#x";
  }

  // ---------------------------------------------------------------------------
  // r_entity and decode

  /** A character `[^;\s]` matches. */
  predicate NameChar(c: char) {
    c != ';' && !IsSpace(c)
  }

  predicate NameChars(x: string) {
    forall i :: 0 <= i < |x| ==> NameChar(x[i])
  }

  /** The longest run of name characters at the start of `t`. */
  function NameLen(t: string): (n: nat)
    ensures n <= |t| && NameChars(t[..n])
    ensures n == |t| || !NameChar(t[n])
  {
    if t == [] || !NameChar(t[0]) then 0
    else
      var m := NameLen(t[1..]);
      assert t[..m + 1] == [t[0]] + t[1..][..m];
      m + 1
  }

  /** `&([^;\s]+);` matches at the start of `s` and its `;` is at index `j`. */
  predicate EntityAt(s: string, j: nat) {
    2 <= j < |s| && s[0] == '&' && s[j] == ';' && NameChars(s[1..j])
  }

  /** A match can only end right after the longest run of name characters. */
  lemma EntityEndsAfterName(s: string)
    ensures forall j: nat :: EntityAt(s, j) ==> j - 1 == NameLen(s[1..])
  {
    if s != [] {
      var n := NameLen(s[1..]);
      forall j: nat | EntityAt(s, j) ensures j - 1 == n {
        assert s[1..j] == s[1..][..j - 1];
      }
    }
  }

  /** Where `r_entity` matches at the start of `s`: since the name cannot
      contain `;`, the greedy name ends right before the first `;` or space. */
  function MatchAt(s: string): (r: Option<nat>)
    ensures r.Some? ==> EntityAt(s, r.value)
    ensures r.None? ==> forall j :: !EntityAt(s, j)
  {
    EntityEndsAfterName(s);
    if s == [] || s[0] != '&' then None
    else
      var n := NameLen(s[1..]);
      if n >= 1 && n + 1 < |s| && s[n + 1] == ';' then
        assert s[1..n + 1] == s[1..][..n];
        Some(n + 1)
      else
        None
  }

  /** `decode(html)`: `re.sub(r_entity, entity, html)`, matching leftmost and
      without overlap; text between matches is copied. */
  function Decode(table: map<string, string>, s: string): (r: Option<string>)
    decreases |s|
  {
    if s == [] then Some([])
    else match MatchAt(s)
      case Some(j) =>
        (match Entity(table, s[1..j])
         case None => None
         case Some(e) =>
           match Decode(table, s[j + 1..])
           case None => None
           case Some(rest) => Some(e + rest))
      case None =>
        match Decode(table, s[1..])
        case None => None
        case Some(rest) => Some([s[0]] + rest)
  }

  /** Text without `&` comes out unchanged. */
  lemma {:induction false} DecodePlain(table: map<string, string>, s: string)
    requires '&' !in s
    ensures Decode(table, s) == Some(s)
  {
    if s != [] {
      assert s[0] != '&';
      assert '&' !in s[1..] by {
        forall k | 0 <= k < |s[1..]| ensures s[1..][k] != '&' {
          assert s[1..][k] == s[k + 1];
        }
      }
      DecodePlain(table, s[1..]);
      assert s == [s[0]] + s[1..];
    }
  }

  /** Text up to the first `&` is copied unchanged and decoding goes on from
      there. */
  lemma {:induction false} DecodeOfPlainPrefix(table: map<string, string>, p: string, rest: string)
    requires '&' !in p
    ensures Decode(table, p + rest) == Prefixed(p, Decode(table, rest))
  {
    if p == [] {
      assert p + rest == rest;
      PrefixedEmpty(Decode(table, rest));
    } else {
      var tail := p[1..];
      assert '&' !in tail by {
        forall k | 0 <= k < |tail| ensures tail[k] != '&' {
          assert tail[k] == p[k + 1];
        }
      }
      DecodeOfPlainPrefix(table, tail, rest);
      assert (p + rest)[1..] == tail + rest;
      DecodeOfPlainChar(table, p + rest);
      PrefixedTwice([p[0]], tail, Decode(table, rest));
      assert [p[0]] + tail == p;
    }
  }

  /** `p` in front of a decoded text, or a failure passed on. */
  function Prefixed(p: string, o: Option<string>): Option<string> {
    if o.Some? then Some(p + o.value) else None
  }

  lemma PrefixedEmpty(o: Option<string>)
    ensures Prefixed([], o) == o
  {
    if o.Some? {
      assert [] + o.value == o.value;
    }
  }

  lemma PrefixedTwice(a: string, b: string, o: Option<string>)
    ensures Prefixed(a, Prefixed(b, o)) == Prefixed(a + b, o)
  {
    if o.Some? {
      assert a + (b + o.value) == a + b + o.value;
    }
  }

  /** A character other than `&` is copied. */
  lemma DecodeOfPlainChar(table: map<string, string>, s: string)
    requires s != [] && s[0] != '&'
    ensures Decode(table, s) == Prefixed([s[0]], Decode(table, s[1..]))
  {
  }

  /** A complete entity is replaced by what `entity` makes of its name, and
      decoding goes on right after its `;`. */
  lemma DecodeOfEntity(table: map<string, string>, x: string, rest: string)
    requires x != [] && NameChars(x)
    ensures Decode(table, "&" + x + ";" + rest) ==
      match Entity(table, x)
      case None => None
      case Some(e) =>
        match Decode(table, rest)
        case None => None
        case Some(r) => Some(e + r)
  {
    var s := "&" + x + ";" + rest;
    var j := |x| + 1;
    assert s[1..j] == x;
    assert EntityAt(s, j);
    assert MatchAt(s) == Some(j);
    assert s[j + 1..] == rest;
  }

  /** An `&` that does not open a complete entity is copied. */
  lemma DecodeKeepsBareAmpersand(table: map<string, string>, rest: string)
    requires forall j :: !EntityAt("&" + rest, j)
    ensures Decode(table, "&" + rest) ==
      match Decode(table, rest)
      case None => None
      case Some(r) => Some("&" + r)
  {
    assert ("&" + rest)[1..] == rest;
  }

  /** An `&` followed by a space, a `;` or the end of the text opens no entity. */
  lemma NoEntityAfterBareAmpersand(rest: string)
    requires rest == [] || rest[0] == ';' || IsSpace(rest[0])
    ensures forall j :: !EntityAt("&" + rest, j)
  {
    var s := "&" + rest;
    EntityEndsAfterName(s);
    assert s[1..] == rest;
    assert rest != [] ==> !NameChar(rest[0]);
  }

  /** Every character written as a decimal numeric reference. */
  function Escaped(s: string): (r: string)
    ensures s == [] <==> r == []
  {
    if s == [] then [] else "&#" + Show(s[0] as int, Decimal) + ";" + Escaped(s[1..])
  }

  /** A decimal reference is all name characters: a `#` and digits. */
  lemma ReferenceIsName(n: nat)
    ensures NameChars("#" + Show(n, Decimal))
  {
    var x := "#" + Show(n, Decimal);
    forall i | 0 < i < |x| ensures NameChar(x[i]) {
      assert IsDigit(x[i], Decimal);
    }
  }

  /** Decoding undoes escaping every character as `&#N;`, whatever the table. */
  lemma {:induction false} DecodeOfEscaped(table: map<string, string>, s: string)
    ensures Decode(table, Escaped(s)) == Some(s)
  {
    if s != [] {
      var x := "#" + Show(s[0] as int, Decimal);
      ReferenceIsName(s[0] as int);
      assert Escaped(s) == "&" + x + ";" + Escaped(s[1..]);
      DecodeOfEntity(table, x, Escaped(s[1..]));
      EntityOfDecimal(table, s[0]);
      DecodeOfEscaped(table, s[1..]);
      assert s == [s[0]] + s[1..];
    }
  }
}
